=== FILE: README.md ===
# Storefront core in Dafny

A Dafny model of the logic inside a small Django storefront. It covers:

- **Cart arithmetic** (`order/models.py`). A line costs the product's current price times its quantity. A cart's total and item count are sums over its lines. The cart table holds at most one cart per user.
- **Catalogue rules** (`store/models.py`). The price and stock column constraints. The slug rule applied by `Category.save` and `Product.save`: a blank slug becomes `<id>-<slugify(name)>` once the id is known.
- **Product list** (`store/views.py`). A whitelist turns the `sort` parameter into an allowed key. An optional category slug filters the products, and the result is ordered by that key. The page also receives a `current_sort` value, and a context processor supplies `cart_count`.
- **Mock order status** (`order/views.py`). The `order_id` parameter produces an error answer, or a status and message chosen by the id's parity under Python's `%`.
- **Popularity report** (`store/management/commands/find_popular_products.py`). Products are ranked by the number of distinct carts that hold them, and the top three are kept. As written, the command prints its start message and heading and then fails on the first ranked product, because it calls `.all()` on a single category object. The model's listing, with rank labels, optional pluralised cart counts and prices, is what the command would print without that failure. The file also has a percentage helper guarded against a zero total.

Prices are integer cents, because the price column is a decimal with two places, so every sum is exact. Quantities and stock are `int`, with the column constraint (non-negative) stated as a predicate. Django's `slugify` is passed in as a function parameter, and nothing is assumed about it. The database's `ORDER BY` is modelled as "some permutation sorted by the key": `Sorting.SortBy` is one such order. Contracts promise only permutation and sortedness, never a particular order for ties.

Modules, one per source file or shared concept:

| file | module | models |
|---|---|---|
| wrappers.dfy | `Wrappers` | `Option`, `Result` |
| decimal.dfy | `Decimal` | Python's `str(int)`, base-10 `int(text)`, digit counts, and the text of a 2-place price |
| sorting.dfy | `Sorting` | ordering a sequence by a total preorder |
| store_models.dfy | `StoreModels` | `Category`, `Product`, field constraints, the slug rule, product creation |
| order_models.dfy | `OrderModels` | `CartItem`, `Cart`, totals, the one-cart-per-user table |
| store_views.dfy | `StoreViews` | sort whitelist, category filter, ordering, `current_sort`, `cart_processor` |
| order_views.dfy | `OrderViews` | `order_status` |
| popular_products.dfy | `PopularProducts` | ranking, report lines, `get_cart_percentage` |

What the code does not do, and so the model does not either:

- Carts belong to users only, through a one-to-one user field. There are no anonymous carts, no merge of carts and no stock logic.
- The quantity column is a non-negative integer that defaults to 1.
- A cart total is the sum of its lines, with no shipping charge.
- A cart may hold several lines for the same product.

## Model

| member | source | states |
|---|---|---|
| StoreModels.PriceFitsBound | store/models.py:108 | A price fits ten digits with two decimal places exactly when its magnitude is below 10^10 cents, that is, when its whole part has at most eight digits. |
| StoreModels.GeneratedSlug | store/models.py:97 | A generated slug is never blank, and the id can be read back from the digits before its first dash. |
| StoreModels.FillSlug | store/models.py:96-97 | The slug changes exactly when it is blank and the id is known. A changed slug starts with that id. The result is blank exactly when the slug was blank and the id unknown. |
| StoreModels.SaveCategory | store/models.py:94-98 | The slug follows the blank-and-id rule, using the id the row had before the save. A row without an id then receives the id the database assigns, and a stored row keeps its id. No other field changes. |
| StoreModels.SaveProduct | store/models.py:115-118 | The same as for a category: the slug rule uses the id from before the save, a new row receives its assigned id, and no other field changes. Saving keeps the price and stock constraints exactly when the row met them. |
| StoreModels.SlugNeverOverwritten | store/models.py:96-97 | A non-blank slug is never replaced by save. |
| StoreModels.SlugFromIdAndName | store/models.py:117 | With a known id and a blank slug, the slug becomes the decimal id, "-", then slugify(name). |
| StoreModels.SaveCategoryIdempotent | store/models.py:94-98 | Saving a stored category (one with an id) a second time gives the same row as saving it once. |
| StoreModels.SaveCategoryTwice | store/models.py:94-98 | For every category, a second save changes nothing, except that a new category with a blank slug gets "<id>-<slugify(name)>" only at its second save. |
| StoreModels.SaveProductIdempotent | store/models.py:115-118 | Saving a stored product (one with an id) a second time gives the same row as saving it once. |
| StoreModels.SaveProductTwice | store/models.py:115-118 | For every product, a second save changes nothing, except that a new product with a blank slug gets "<id>-<slugify(name)>" only at its second save. |
| StoreModels.CreateProduct | store/models.py:113-118 | Creating a product as written stores its slug unchanged, because the id is unknown at the first save. The insert succeeds exactly when no row already has that slug. |
| StoreModels.SecondFreshProductRejected | store/models.py:113-118 | Two products created with blank slugs: the first is stored with slug "", and the second is refused by the unique constraint. |
| StoreModels.StoredRowSlugOnNextSave | store/models.py:113-118 | The row created from a product with a blank slug is stored with slug "", and its next save generates the slug from the assigned id. |
| StoreModels.CreateProductCorrected | store/models.py:113-118 | Creation with the slug filled in from the assigned id keeps slugs unique. |
| StoreModels.CorrectedCreateAccepted | store/models.py:113-118 | With the correction, a product with a blank slug and a fresh id is always accepted. The table keeps "every slug starts with its own id, ids distinct". |
| OrderModels.NewItem | order/models.py:25 | A new line is for the given product with the column default quantity 1, so it is valid and its total is one unit's price. |
| OrderModels.LineTotal | order/models.py:31-32 | A line of quantity 0 costs nothing, a line of one unit costs the price, and a valid line of a non-negative price never costs less than 0. |
| OrderModels.LineTotalIsUnitSum | order/models.py:31-32 | A line of quantity n costs the same as n single-unit lines of the same product. |
| OrderModels.CartTotal | order/models.py:16-17 | An empty cart totals 0. With non-negative prices and quantities the total is non-negative. |
| OrderModels.ItemsCount | order/models.py:19-20 | An empty cart counts 0. With valid quantities the count is never negative. |
| OrderModels.ItemsCountZero | order/models.py:19-20 | With valid quantities, the count is 0 exactly when every line has quantity 0. |
| OrderModels.AddLine | order/models.py:16-20 | Appending a line raises the total by its line total and the count by its quantity. |
| OrderModels.SumOfPermutation | order/models.py:17 | A sum over the cart's lines does not depend on their order. |
| OrderModels.OrderIrrelevant | order/models.py:16-20 | Two carts whose lines are permutations of each other have equal totals and equal counts. |
| OrderModels.CartOf | order/models.py:9 | A user's cart is found exactly when some row names the user, and the row found is theirs. |
| OrderModels.CartOfIsTheRow | order/models.py:9 | In a table with one cart per user, the cart found for a user is the row that names them. |
| OrderModels.CreateCart | order/models.py:9 | Creating a cart fails exactly when the user already has one, and success keeps one cart per user. |
| Sorting.SortBy | store/views.py:51 | The ordered result is a permutation of its input and sorted by the key. |
| StoreViews.KeyText | store/views.py:39 | The text of every sort key is one of the six allowed texts. |
| StoreViews.ParseSortKey | store/views.py:39-41 | A text names a sort key exactly when it is one of the six allowed, and that key's text is the text itself. |
| StoreViews.KeyTextRoundTrip | store/views.py:39 | Every key's text parses back to the key. |
| StoreViews.ValidateSort | store/views.py:36-41 | The applied key is always allowed. With no parameter it is "-created_at". An allowed parameter is kept unchanged, and any other is replaced by "-created_at". |
| StoreViews.ValidateSortIdempotent | store/views.py:39-41 | Validating an already validated key gives it back. |
| StoreViews.AppliedKey | store/views.py:36-51 | The key the list is ordered by is the validated sort text. |
| StoreViews.CurrentSortAgreesWhenAllowed | store/views.py:60 | The `current_sort` value equals the applied key exactly when the parameter is absent or allowed. Otherwise it echoes the invalid text. |
| StoreViews.CurrentSort | store/views.py:60 | The page is told the raw sort parameter when one is given, and the applied default when none is. |
| StoreViews.OrderingIsTotalPreorder | store/views.py:51 | Each of the six orderings compares every pair of products and is transitive. |
| StoreViews.FilterByCategory | store/views.py:48 | The result holds each product of the given category slug as many times as the input does, and no other product. |
| StoreViews.ProductList | store/views.py:34-51 | With a non-empty slug the result holds exactly the products of that category. Without one it holds every product. It is a permutation of that selection, ordered by the applied key. |
| StoreViews.CartCount | store/views.py:86-90 | The count is the number of entries in the session cart, or 0 when there is no session or no cart entry. |
| StoreViews.CartCountNewEntry | store/views.py:88-89 | A new key in the session cart raises the count by one. |
| StoreViews.CartCountExistingEntry | store/views.py:88-89 | Updating a key already in the session cart leaves the count unchanged. |
| OrderViews.PyMod | order/views.py:18 | Python's remainder takes the sign of the divisor and pairs with the floored quotient. |
| OrderViews.OrderStatus | order/views.py:10-25 | A missing or empty id gives the 400 error. An id Python cannot read as an integer gives a server error. This includes one of more than 4300 digits and one padded with the separator controls 28 to 31. Otherwise the answer echoes the id exactly, the status is "Shipped" exactly when the id is even, and the message agrees with the status. |
| OrderViews.StatusFollowsParity | order/views.py:18-20 | For an integer of at most 4300 digits written as Python writes it, the answer is a status: "Shipped" when even, "Processing" when odd. A longer one is a server error. |
| OrderViews.NegativeOddIsProcessing | order/views.py:18 | The id -3 is "Processing", because Python's remainder of -3 by 2 is 1. |
| OrderViews.SeparatorIdIsServerError | order/views.py:18 | An id that starts with a separator control (28 to 31), such as "\x1c5", is a server error, because `int` does not strip those characters. |
| Decimal.ParseInt | order/views.py:18 | Python's `int` accepts only text that holds a digit, and only values of at most 4300 digits. |
| Decimal.ParseIntAccepts | order/views.py:18 | Every text made of optional whitespace (9 to 13 and the space), an optional "+" or "-", a digit group with single underscores of at most 4300 digits, and optional whitespace reads as its signed value. So " +1_000 " reads as 1000 and "007" as 7. |
| Decimal.ParseIntShape | order/views.py:18 | Conversely, every text `int` reads has that shape, and its value is the signed value of its digit group. |
| Decimal.SeparatorRefused | order/views.py:18 | A text that starts with a separator control (28 to 31) is refused. |
| Decimal.NatToString | store/models.py:97 | Python's `str` of a natural number, as in `f"{self.id}"`, `f"{index}"` and `f"{cart_count}"`: at least one digit, only digits, and no leading zero. NatToStringRoundTrip reads it back. |
| Decimal.NatToStringRoundTrip | store/models.py:97 | The digits of a number's text read back as the number. |
| Decimal.IntToString | order/views.py:18 | Python's `str` of an integer: non-empty, starting with "-" exactly when the integer is negative. |
| Decimal.IntToStringRoundTrip | order/views.py:18 | Python's `int` reads the decimal text of an integer of at most 4300 digits back as that integer, and refuses the text of a longer one. |
| Decimal.FormatCentsRoundTrip | store/management/commands/find_popular_products.py:48 | The printed two-place price reads back as the same number of cents. |
| Decimal.FormatCents | store/management/commands/find_popular_products.py:48 | A printed price has exactly two digits after its point, starts with "-" exactly when negative, and holds only digits, the point and the sign. |
| PopularProducts.Score | store/management/commands/find_popular_products.py:22-25 | A product scores above zero exactly when some cart holds it. |
| PopularProducts.ScoreIgnoresRepeats | store/management/commands/find_popular_products.py:25 | Another item of a product in a cart that already holds it does not change the score. |
| PopularProducts.ScoreCountsNewCart | store/management/commands/find_popular_products.py:25 | The first item of a product in a cart raises its score by exactly one. |
| PopularProducts.Scored | store/management/commands/find_popular_products.py:22-25 | The ranked candidates are exactly the catalogue products held by at least one cart, each paired with its score. |
| PopularProducts.TopDistinct | store/management/commands/find_popular_products.py:24-28 | Sorting and cutting the grouped rows keeps the reported products distinct. |
| PopularProducts.TopMembers | store/management/commands/find_popular_products.py:24-28 | Every reported entry is one of the grouped rows, and the report is empty exactly when no row was grouped. |
| PopularProducts.Top | store/management/commands/find_popular_products.py:28 | The `[:3]` cut: a prefix of its input, the whole input when it has at most three entries, and exactly three entries otherwise. |
| PopularProducts.Popular | store/management/commands/find_popular_products.py:22-28 | For a catalogue with distinct ids: at most three products are reported, no product twice. Each is in the catalogue, in some cart, and reported with its true score. Scores do not increase down the list. Every unreported product in a cart scores no higher than the third entry. The list is empty exactly when no product is in any cart. |
| PopularProducts.TopOfSorted | store/management/commands/find_popular_products.py:26-28 | The cut to three keeps the descending order, and nothing left out outranks the last entry kept. |
| PopularProducts.CartWord | store/management/commands/find_popular_products.py:44 | The word is "cart" exactly when the count is 1, otherwise "carts". |
| PopularProducts.ProductLine | store/management/commands/find_popular_products.py:39-48 | A listing line starts with its rank label, and the rank reads back from the line. |
| PopularProducts.ProductLineParts | store/management/commands/find_popular_products.py:39-48 | A listing line starts with its rank label and the product name, and ends with " - <price> USD". The price can be read back from the line. The " (<n> cart)" or " (<n> carts)" part sits just before the price exactly when the count is requested. |
| PopularProducts.PriceReadBack | store/management/commands/find_popular_products.py:48 | The price part that ends a line reads back as the price, whatever comes before it. |
| PopularProducts.WordBeforeUsd | store/management/commands/find_popular_products.py:48 | The word between " - " and the closing " USD" is what the price reader parses, when it holds no space. |
| PopularProducts.Listing | store/management/commands/find_popular_products.py:37 | One line per reported product, numbered consecutively from the first rank. |
| PopularProducts.Report | store/management/commands/find_popular_products.py:19-69 | An empty ranking prints only the start message and the warning. Otherwise the warning is absent and the listed lines are the ranking's lines with ranks 1, 2, 3 in order. This non-empty case is what the command would print if line 51 did not raise. |
| PopularProducts.ReportSummary | store/management/commands/find_popular_products.py:63-69 | A non-empty report ends with the summary heading, then the number of carts and the number of products after their labels; each reads back as the count given. |
| PopularProducts.RankLabelsInOrder | store/management/commands/find_popular_products.py:37 | The report of the actual ranking labels its lines 1, 2, 3 in order, never beyond 3. |
| PopularProducts.CartPercentage | store/management/commands/find_popular_products.py:71-75 | With no carts the percentage is 0. Otherwise the percentage times the total equals the count times 100. |
| PopularProducts.PercentageBounds | store/management/commands/find_popular_products.py:71-75 | A count between 0 and the total gives a percentage between 0 and 100. |

## Left out

- The anonymous cart, the cart merge on login, stock reservation and checkout are not modelled. The URL table imports three cart and checkout views that order/views.py does not define, so there is no code to model.
- `order_home` is not modelled: it returns a constant text.
- The error pages, the home and contact pages, the product detail view and its related-products cache are not modelled. They are rendering and caching.
- The category list annotated with product counts and the elided page range are not modelled. They are presentation.
- The ORM, pagination, templates, messages, output styling and translation are not modelled. Translated strings are taken to be their English text.
- `slugify` is a function parameter, and its internals are not modelled.
- Timestamps are numbers supplied by the caller. The automatic `auto_now` and `auto_now_add` updates and cascade deletes are not modelled.
- PopularProducts.Report: the category suffix is not modelled. Line 51 calls `.all()` on `product.category`, a single `Category` object, which raises `AttributeError` on the first ranked product. As written, the command prints the start message and the heading and then fails, with no listing or summary. The model's non-empty report is what would be printed without that failure, less the category suffix.
- Decimal.ParseInt: follows the default digit limit of Python 3.10.7 and later (4300 digits). Earlier interpreters have no limit, and a limit changed with `sys.set_int_max_str_digits` is not modelled.
- StoreModels.CreateProduct: the database is not modelled as checking the price and stock constraints on insert. `FieldsValid` states them, and saving keeps them.
- PopularProducts.CartPercentage: computes the exact rational percentage, not the IEEE double that Python's float division gives.
- Decimal.ParseInt: accepts ASCII digits and the ASCII whitespace `int` strips (9 to 13 and the space) only. Python's `int` also accepts other Unicode digits and spaces.
- The `cache_page(60 * 15)` on the product list (store/views.py:27) is not modelled. It can serve a list up to 15 minutes old for each URL, and the model always computes the current list.
- StoreViews.ProductLe: names are compared by character code. The database's collation may order them differently.
- Sorting.SortBy: rows with equal keys come out in insertion-sort order. The database may return ties in any order, so no contract depends on tie order.
- `users/` (forms, activity middleware, profile string) is not part of this model. Neither are the seeding command, the admin registrations or the migration.

## Findings

| source | as written | input that shows it | evidently intended | confidence | as-written member | corrected member |
|---|---|---|---|---|---|---|
| store/models.py:113-118 | The slug is generated only when the id is known. A new product has no id at its first save, so it is stored with slug "" in a column declared unique. | Create two products with blank slugs: the second insert violates the unique constraint. | Each new product gets the slug "<id>-<slugify(name)>" from the id the database assigns. | high, not executed | StoreModels.CreateProduct, StoreModels.SecondFreshProductRejected | StoreModels.CreateProductCorrected, StoreModels.CorrectedCreateAccepted |

=== FILE: decimal.dfy ===
/**
 * Decimal text for integers and fixed-point prices: Python's `str(int)`,
 * the part of Python's `int(text)` that the views rely on, digit counts
 * (the `max_digits` rule of a decimal field) and the `str` of a 2-place
 * decimal price, held here as integer cents.
 */
module Decimal {
  import opened Wrappers

  predicate IsDigit(c: char) {
    '0' <= c <= '9'
  }

  function DigitValue(c: char): nat
    requires IsDigit(c)
  {
    (c as int) - ('0' as int)
  }

  function DigitChar(d: nat): (c: char)
    requires d < 10
    ensures IsDigit(c) && DigitValue(c) == d
  {
    (('0' as int) + d) as char
  }

  predicate AllDigits(s: string) {
    forall i :: 0 <= i < |s| ==> IsDigit(s[i])
  }

  /** Value of a string of decimal digits, most significant digit first; "" reads as 0. */
  function DigitsValue(s: string): nat
    requires AllDigits(s)
  {
    if |s| == 0 then 0 else DigitsValue(s[..|s| - 1]) * 10 + DigitValue(s[|s| - 1])
  }

  /** Python's `str(n)` for a natural number: at least one digit, no leading zero. */
  function NatToString(n: nat): (s: string)
    ensures 1 <= |s| && AllDigits(s)
    ensures |s| > 1 ==> s[0] != '0'
  {
    if n < 10 then [DigitChar(n)] else NatToString(n / 10) + [DigitChar(n % 10)]
  }

  /** Python's `str(n)` (and an f-string's `{n}`) for an integer of at most `MaxStrDigits` digits. */
  function IntToString(n: int): (s: string)
    ensures 1 <= |s|
    ensures n < 0 <==> s[0] == '-'
  {
    if n < 0 then "-" + NatToString(-n) else NatToString(n)
  }

  /** Reading back the digits of `NatToString(n)` gives `n`. */
  lemma {:induction false} NatToStringRoundTrip(n: nat)
    ensures DigitsValue(NatToString(n)) == n
  {
    if n >= 10 {
      var s := NatToString(n);
      NatToStringRoundTrip(n / 10);
      assert s[..|s| - 1] == NatToString(n / 10);
    }
  }

  function Pow10(k: nat): (p: nat)
    ensures p >= 1
  {
    if k == 0 then 1 else 10 * Pow10(k - 1)
  }

  /** A natural number has at most `k` decimal digits exactly when it is below 10^k. */
  lemma {:induction false} DigitCountBound(n: nat, k: nat)
    requires k >= 1
    ensures |NatToString(n)| <= k <==> n < Pow10(k)
  {
    if n < 10 {
      Pow10AtLeastTen(k);
    } else if k == 1 {
      assert |NatToString(n)| == |NatToString(n / 10)| + 1;
    } else {
      DigitCountBound(n / 10, k - 1);
      assert |NatToString(n)| == |NatToString(n / 10)| + 1;
    }
  }

  lemma {:induction false} Pow10AtLeastTen(k: nat)
    requires k >= 1
    ensures Pow10(k) >= 10
  {
    if k > 1 {
      Pow10AtLeastTen(k - 1);
    }
  }

  /** The magnitude of an integer. */
  function Abs(n: int): nat {
    if n < 0 then -n else n
  }

  /** A string of `k` digits reads as a number below 10^k. */
  lemma {:induction false} DigitsValueBelow(s: string)
    requires AllDigits(s)
    ensures DigitsValue(s) < Pow10(|s|)
  {
    if |s| > 0 {
      DigitsValueBelow(s[..|s| - 1]);
    }
  }

  /** The value of a string of digits is written with no more digits than the string has. */
  lemma DigitsValueWidth(s: string)
    requires AllDigits(s)
    ensures |NatToString(DigitsValue(s))| <= if |s| == 0 then 1 else |s|
  {
    if |s| > 0 {
      DigitsValueBelow(s);
      DigitCountBound(DigitsValue(s), |s|);
    }
  }

  /** Index of the first occurrence of `c` in `s`, if any. */
  function FirstIndex(s: string, c: char): (r: Option<nat>)
    ensures r.Some? ==> r.value < |s| && s[r.value] == c
    ensures r.Some? ==> forall k :: 0 <= k < r.value ==> s[k] != c
    ensures r.None? ==> forall k :: 0 <= k < |s| ==> s[k] != c
  {
    if |s| == 0 then None
    else if s[0] == c then Some(0)
    else match FirstIndex(s[1..], c)
      case None => None
      case Some(k) => Some(k + 1)
  }

  /** Index of the last occurrence of `c` in `s`, if any. */
  function LastIndex(s: string, c: char): (r: Option<nat>)
    ensures r.Some? ==> r.value < |s| && s[r.value] == c
    ensures r.Some? ==> forall k :: r.value < k < |s| ==> s[k] != c
    ensures r.None? ==> forall k :: 0 <= k < |s| ==> s[k] != c
  {
    if |s| == 0 then None
    else if s[|s| - 1] == c then Some(|s| - 1)
    else LastIndex(s[..|s| - 1], c)
  }

  /** In a text that ends with `c` and then a word free of `c`, the last `c` starts that word. */
  lemma LastIndexBeforeWord(s: string, head: string, word: string, c: char)
    requires s == head + [c] + word
    requires forall k :: 0 <= k < |word| ==> word[k] != c
    ensures LastIndex(s, c) == Some(|head|)
  {
    assert s[|head|] == c;
  }

  /** In a text that starts with digits and then a non-digit `c`, the first `c` ends the digits. */
  lemma FirstIndexAfterDigits(digits: string, s: string, c: char)
    requires AllDigits(digits) && !IsDigit(c)
    requires |digits| < |s| && s[..|digits|] == digits && s[|digits|] == c
    ensures FirstIndex(s, c) == Some(|digits|)
  {
  }

  // ---------------------------------------------------------------------
  // Python's int(text), base 10

  /**
   * The ASCII characters `int` strips from both ends of its argument: C's
   * whitespace, tab to carriage return, and the space. The separator
   * controls 28 to 31 count as space for `str.isspace` but are not
   * stripped, so `int` refuses them.
   */
  predicate IsSpace(c: char) {
    9 <= c as int <= 13 || c == ' '
  }

  function TrimStart(s: string): (t: string)
    ensures |t| <= |s|
    ensures |t| > 0 ==> !IsSpace(t[0])
  {
    if |s| > 0 && IsSpace(s[0]) then TrimStart(s[1..]) else s
  }

  function TrimEnd(s: string): (t: string)
    ensures |t| <= |s|
    ensures |t| > 0 ==> !IsSpace(t[|t| - 1])
  {
    if |s| > 0 && IsSpace(s[|s| - 1]) then TrimEnd(s[..|s| - 1]) else s
  }

  /** Digits, optionally separated by single underscores: "1_000" but not "_1", "1_" or "1__0". */
  predicate IsDigitGroup(s: string) {
    && |s| > 0
    && IsDigit(s[0])
    && IsDigit(s[|s| - 1])
    && DigitsOrUnderscores(s)
    && forall i :: 0 <= i < |s| && s[i] == '_' ==> i + 1 < |s| && IsDigit(s[i + 1])
  }

  predicate DigitsOrUnderscores(s: string) {
    forall i :: 0 <= i < |s| ==> IsDigit(s[i]) || s[i] == '_'
  }

  function DropUnderscores(s: string): (t: string)
    requires DigitsOrUnderscores(s)
    ensures AllDigits(t)
    ensures AllDigits(s) ==> t == s
  {
    if |s| == 0 then ""
    else if s[0] == '_' then DropUnderscores(s[1..])
    else [s[0]] + DropUnderscores(s[1..])
  }

  /**
   * CPython's default limit on integer text (`sys.get_int_max_str_digits()`,
   * from Python 3.10.7 on): `int(text)` with more digits, and `str(n)` of a
   * number with more digits, raise `ValueError`. The sign and underscores do
   * not count; leading zeros do.
   */
  const MaxStrDigits: nat := 4300

  /**
   * Python's `int(text)`: `None` where Python raises `ValueError`.
   * Surrounding whitespace is ignored, one sign is allowed, digits may be
   * grouped with single underscores, and at most `MaxStrDigits` digits are
   * accepted.
   */
  function ParseInt(text: string): (r: Option<int>)
    ensures r.Some? ==> exists i :: 0 <= i < |text| && IsDigit(text[i])
    ensures r.Some? ==> |NatToString(Abs(r.value))| <= MaxStrDigits
  {
    var t := TrimEnd(TrimStart(text));
    if |t| > 0 && (t[0] == '-' || t[0] == '+') then
      if IsDigitGroup(t[1..]) && |DropUnderscores(t[1..])| <= MaxStrDigits then
        var d := DropUnderscores(t[1..]);
        var v: int := DigitsValue(d);
        SomeDigitWitness(text, t, 1);
        DigitsValueWidth(d);
        Some(if t[0] == '-' then -v else v)
      else None
    else if IsDigitGroup(t) && |DropUnderscores(t)| <= MaxStrDigits then
      var d := DropUnderscores(t);
      SomeDigitWitness(text, t, 0);
      DigitsValueWidth(d);
      Some(DigitsValue(d))
    else None
  }

  predicate AllSpace(s: string) {
    forall i :: 0 <= i < |s| ==> IsSpace(s[i])
  }

  /** The sign part of an integer text: nothing, "+" or "-". */
  predicate IsSign(sign: string) {
    sign == "" || sign == "+" || sign == "-"
  }

  /**
   * `text` is `ws1 + sign + g + ws2`, the shape `int` accepts: optional
   * whitespace, an optional sign, a digit group of at most `MaxStrDigits`
   * digits, optional whitespace.
   */
  predicate IntText(text: string, ws1: string, sign: string, g: string, ws2: string) {
    && AllSpace(ws1) && AllSpace(ws2) && IsSign(sign)
    && IsDigitGroup(g) && |DropUnderscores(g)| <= MaxStrDigits
    && text == ws1 + sign + g + ws2
  }

  /** The value of a sign and a digit group. */
  function SignedValue(sign: string, g: string): int
    requires DigitsOrUnderscores(g)
  {
    var v: int := DigitsValue(DropUnderscores(g));
    if sign == "-" then -v else v
  }

  /** Every text of the accepted shape reads as its signed value: " +1_000 " as 1000, "007" as 7. */
  lemma ParseIntAccepts(text: string, ws1: string, sign: string, g: string, ws2: string)
    requires IntText(text, ws1, sign, g, ws2)
    ensures ParseInt(text) == Some(SignedValue(sign, g))
  {
    TrimsToSignedGroup(text, ws1, sign, g, ws2);
    SignSplit(sign, g);
    if sign == "" {
      ParseTrimmedUnsigned(text, g);
    } else {
      ParseTrimmedSigned(text, sign + g, sign, g);
    }
  }

  lemma TrimsToSignedGroup(text: string, ws1: string, sign: string, g: string, ws2: string)
    requires IntText(text, ws1, sign, g, ws2)
    ensures TrimEnd(TrimStart(text)) == sign + g
  {
    var t := sign + g;
    assert text == ws1 + (t + ws2);
    assert (t + ws2)[0] == t[0];
    TrimStartSpaces(ws1, t + ws2);
    assert t[|t| - 1] == g[|g| - 1];
    TrimEndSpaces(t, ws2);
  }

  lemma SignSplit(sign: string, g: string)
    requires IsSign(sign) && |g| > 0
    ensures sign == "" ==> sign + g == g
    ensures sign != "" ==> [(sign + g)[0]] == sign && (sign + g)[1..] == g
  {
  }

  lemma ParseTrimmedUnsigned(text: string, g: string)
    requires TrimEnd(TrimStart(text)) == g
    requires IsDigitGroup(g) && |DropUnderscores(g)| <= MaxStrDigits
    ensures ParseInt(text) == Some(SignedValue("", g))
  {
    assert !(g[0] == '-' || g[0] == '+');
  }

  lemma ParseTrimmedSigned(text: string, t: string, sign: string, g: string)
    requires TrimEnd(TrimStart(text)) == t && |t| > 0 && [t[0]] == sign && t[1..] == g
    requires sign == "-" || sign == "+"
    requires IsDigitGroup(g) && |DropUnderscores(g)| <= MaxStrDigits
    ensures ParseInt(text) == Some(SignedValue(sign, g))
  {
    assert t[0] == '-' <==> sign == "-";
  }

  /** Only texts of the accepted shape are read, and each as its signed value. */
  lemma ParseIntShape(text: string) returns (ws1: string, sign: string, g: string, ws2: string)
    requires ParseInt(text).Some?
    ensures IntText(text, ws1, sign, g, ws2)
    ensures ParseInt(text) == Some(SignedValue(sign, g))
  {
    var t := TrimEnd(TrimStart(text));
    ParseIntCore(text);
    ws1, ws2 := TrimmedParts(text);
    if t[0] == '-' || t[0] == '+' {
      sign, g := [t[0]], t[1..];
      assert IsSign(sign) by {
        if t[0] == '-' { assert sign == "-"; } else { assert sign == "+"; }
      }
    } else {
      sign, g := "", t;
    }
    assert t == sign + g;
    Regroup(ws1, sign, g, ws2);
    ParseIntAccepts(text, ws1, sign, g, ws2);
  }

  lemma Regroup(a: string, b: string, c: string, d: string)
    ensures a + (b + c) + d == a + b + c + d
  {
  }

  /** What a successful read says of the trimmed text. */
  lemma ParseIntCore(text: string)
    requires ParseInt(text).Some?
    ensures var t := TrimEnd(TrimStart(text));
      && |t| > 0
      && ((t[0] == '-' || t[0] == '+') ==> IsDigitGroup(t[1..]) && |DropUnderscores(t[1..])| <= MaxStrDigits)
      && (!(t[0] == '-' || t[0] == '+') ==> IsDigitGroup(t) && |DropUnderscores(t)| <= MaxStrDigits)
  {
  }

  /** A text is its leading whitespace, its trimmed core and its trailing whitespace. */
  lemma TrimmedParts(text: string) returns (ws1: string, ws2: string)
    ensures AllSpace(ws1) && AllSpace(ws2)
    ensures text == ws1 + TrimEnd(TrimStart(text)) + ws2
  {
    var u := TrimStart(text);
    TrimStartSplit(text);
    var t := TrimEnd(u);
    TrimEndSplit(u);
    ws1 := text[..|text| - |u|];
    ws2 := u[|t|..];
    SplitAt(u, |t|);
    SplitAt(text, |text| - |u|);
  }

  lemma SplitAt(s: string, k: nat)
    requires k <= |s|
    ensures s == s[..k] + s[k..]
  {
  }

  lemma {:induction false} TrimStartSpaces(ws: string, rest: string)
    requires AllSpace(ws) && (|rest| == 0 || !IsSpace(rest[0]))
    ensures TrimStart(ws + rest) == rest
  {
    if |ws| > 0 {
      assert (ws + rest)[1..] == ws[1..] + rest;
      TrimStartSpaces(ws[1..], rest);
    } else {
      assert ws + rest == rest;
    }
  }

  lemma {:induction false} TrimEndSpaces(rest: string, ws: string)
    requires AllSpace(ws) && (|rest| == 0 || !IsSpace(rest[|rest| - 1]))
    ensures TrimEnd(rest + ws) == rest
  {
    if |ws| > 0 {
      var s := rest + ws;
      assert s[..|s| - 1] == rest + ws[..|ws| - 1];
      TrimEndSpaces(rest, ws[..|ws| - 1]);
    } else {
      assert rest + ws == rest;
    }
  }

  /** `TrimStart` drops a prefix of whitespace. */
  lemma {:induction false} TrimStartSplit(s: string)
    ensures TrimStart(s) == s[|s| - |TrimStart(s)|..]
    ensures AllSpace(s[..|s| - |TrimStart(s)|])
  {
    if |s| > 0 && IsSpace(s[0]) {
      TrimStartSplit(s[1..]);
      assert s[1..][..|s| - 1 - |TrimStart(s)|] == s[1..|s| - |TrimStart(s)|];
    }
  }

  /** `TrimEnd` drops a suffix of whitespace. */
  lemma {:induction false} TrimEndSplit(s: string)
    ensures TrimEnd(s) == s[..|TrimEnd(s)|]
    ensures AllSpace(s[|TrimEnd(s)|..])
  {
    if |s| > 0 && IsSpace(s[|s| - 1]) {
      TrimEndSplit(s[..|s| - 1]);
      assert s[|TrimEnd(s)|..] == s[..|s| - 1][|TrimEnd(s)|..] + [s[|s| - 1]];
    }
  }

  /** A text that starts with a separator control (28 to 31) is refused: `int` does not strip them. */
  lemma SeparatorRefused(c: char, rest: string)
    requires 28 <= c as int <= 31
    ensures ParseInt([c] + rest) == None
  {
    var text := [c] + rest;
    assert TrimStart(text) == text;
    TrimEndSplit(text);
    assert TrimEnd(text)[0] == c;
  }

  /** A digit of the trimmed text is a digit of the original text. */
  lemma SomeDigitWitness(text: string, t: string, k: nat)
    requires t == TrimEnd(TrimStart(text))
    requires k < |t| && IsDigit(t[k])
    ensures exists i :: 0 <= i < |text| && IsDigit(text[i])
  {
    var i := TrimmedOffset(text, k);
    assert IsDigit(text[i]);
  }

  /** Where a character of the trimmed text sits in the original text. */
  lemma {:induction false} TrimmedOffset(text: string, k: nat) returns (i: nat)
    requires k < |TrimEnd(TrimStart(text))|
    ensures i < |text| && text[i] == TrimEnd(TrimStart(text))[k]
  {
    TrimEndPrefix(TrimStart(text), k);
    i := TrimStartSuffix(text, k);
  }

  lemma {:induction false} TrimEndPrefix(s: string, k: nat)
    requires k < |TrimEnd(s)|
    ensures k < |s| && TrimEnd(s)[k] == s[k]
  {
    if |s| > 0 && IsSpace(s[|s| - 1]) {
      TrimEndPrefix(s[..|s| - 1], k);
    }
  }

  lemma {:induction false} TrimStartSuffix(text: string, k: nat) returns (i: nat)
    requires k < |TrimStart(text)|
    ensures i < |text| && text[i] == TrimStart(text)[k]
  {
    if |text| > 0 && IsSpace(text[0]) {
      var i' := TrimStartSuffix(text[1..], k);
      i := i' + 1;
    } else {
      i := k;
    }
  }

  /**
   * `int(str(n)) == n` for every integer of at most `MaxStrDigits` digits;
   * the text of a longer one is refused.
   */
  lemma IntToStringRoundTrip(n: int)
    ensures ParseInt(IntToString(n)) == if |NatToString(Abs(n))| <= MaxStrDigits then Some(n) else None
  {
    var d := NatToString(Abs(n));
    NatToStringRoundTrip(Abs(n));
    if n < 0 {
      ParseNegativeDigits(d);
    } else {
      ParsePlainDigits(d);
    }
  }

  /** A run of digits reads as its value, within the digit limit. */
  lemma ParsePlainDigits(d: string)
    requires |d| > 0 && AllDigits(d)
    ensures ParseInt(d) == if |d| <= MaxStrDigits then Some(DigitsValue(d) as int) else None
  {
    NoSpaceTrims(d);
    AllDigitsIsGroup(d);
    assert DropUnderscores(d) == d;
    assert d[0] != '-' && d[0] != '+';
  }

  /** A minus sign and a run of digits read as the negated value, within the digit limit. */
  lemma ParseNegativeDigits(d: string)
    requires |d| > 0 && AllDigits(d)
    ensures ParseInt("-" + d) == if |d| <= MaxStrDigits then Some(-(DigitsValue(d) as int)) else None
  {
    var s := "-" + d;
    assert s[|s| - 1] == d[|d| - 1];
    NoSpaceTrims(s);
    AllDigitsIsGroup(d);
    assert DropUnderscores(d) == d;
    assert s[0] == '-' && s[1..] == d;
    ParseMinusRun(s, d);
  }

  lemma ParseMinusRun(s: string, d: string)
    requires TrimEnd(TrimStart(s)) == s && |s| > 0 && s[0] == '-' && s[1..] == d
    requires IsDigitGroup(d) && DropUnderscores(d) == d
    ensures ParseInt(s) == if |d| <= MaxStrDigits then Some(-(DigitsValue(d) as int)) else None
  {
  }

  lemma AllDigitsIsGroup(s: string)
    requires |s| > 0 && AllDigits(s)
    ensures IsDigitGroup(s)
  {
  }

  lemma NoSpaceTrims(s: string)
    requires |s| > 0 && (s[0] == '-' || IsDigit(s[0]))
    requires IsDigit(s[|s| - 1])
    ensures TrimEnd(TrimStart(s)) == s
  {
  }

  // ---------------------------------------------------------------------
  // Two-place decimal prices as integer cents

  /** `str()` of a 2-place decimal whose value is `cents` hundredths: "12.50", "-0.05". */
  function FormatCents(cents: int): (s: string)
    ensures |s| >= 4 && s[|s| - 3] == '.'
    ensures cents < 0 <==> s[0] == '-'
    ensures forall i :: 0 <= i < |s| ==> IsDigit(s[i]) || s[i] == '.' || s[i] == '-'
  {
    var a := if cents < 0 then -cents else cents;
    (if cents < 0 then "-" else "") + NatToString(a / 100) + "." + [DigitChar(a % 100 / 10), DigitChar(a % 10)]
  }

  /** Reads "[-]digits.dd" back as a number of cents. */
  function ParseCents(s: string): Option<int> {
    if |s| < 4 || s[|s| - 3] != '.' || !IsDigit(s[|s| - 2]) || !IsDigit(s[|s| - 1]) then None
    else
      var negative := s[0] == '-';
      var whole := if negative then s[1..|s| - 3] else s[..|s| - 3];
      if |whole| == 0 || !AllDigits(whole) then None
      else
        var v := DigitsValue(whole) * 100 + DigitValue(s[|s| - 2]) * 10 + DigitValue(s[|s| - 1]);
        Some(if negative then -v else v)
  }

  /** The printed price reads back as the same number of cents. */
  lemma FormatCentsRoundTrip(cents: int)
    ensures ParseCents(FormatCents(cents)) == Some(cents)
  {
    var a := if cents < 0 then -cents else cents;
    var w := NatToString(a / 100);
    var d1, d2 := DigitChar(a % 100 / 10), DigitChar(a % 10);
    NatToStringRoundTrip(a / 100);
    CentsSplit(a);
    if cents < 0 {
      assert FormatCents(cents) == "-" + w + "." + [d1, d2];
      NegativeCentsParts(w, d1, d2);
    } else {
      assert FormatCents(cents) == w + "." + [d1, d2];
      CentsParts(w, d1, d2);
    }
  }

  /** Hundreds, tens and units put back together. */
  lemma CentsSplit(a: nat)
    ensures a / 100 * 100 + a % 100 / 10 * 10 + a % 10 == a
  {
    var q, r := a / 100, a % 100;
    var t, u := r / 10, r % 10;
    assert a == q * 100 + r && r == t * 10 + u;
    var k := q * 10 + t;
    assert a == k * 10 + u;
    assert a % 10 == u && a / 10 == k by {
      LastDigitOf(k, u);
    }
  }

  lemma LastDigitOf(k: nat, u: nat)
    requires u < 10
    ensures (k * 10 + u) % 10 == u && (k * 10 + u) / 10 == k
  {
  }

  /** A whole part and two decimals read back as their value in cents. */
  lemma CentsParts(w: string, d1: char, d2: char)
    requires |w| > 0 && AllDigits(w) && IsDigit(d1) && IsDigit(d2)
    ensures ParseCents(w + "." + [d1, d2]) == Some(DigitsValue(w) * 100 + DigitValue(d1) * 10 + DigitValue(d2))
  {
    var s := w + "." + [d1, d2];
    assert CentsLayout(s, w, d1, d2) && s[0] != '-' by {
      assert s[..|s| - 3] == w;
      assert s[0] == w[0];
    }
    CentsText(s, w, d1, d2);
  }

  /** With a leading minus sign, the same parts read back negated. */
  lemma NegativeCentsParts(w: string, d1: char, d2: char)
    requires |w| > 0 && AllDigits(w) && IsDigit(d1) && IsDigit(d2)
    ensures ParseCents("-" + w + "." + [d1, d2]) == Some(-(DigitsValue(w) * 100 + DigitValue(d1) * 10 + DigitValue(d2)))
  {
    var s := "-" + w + "." + [d1, d2];
    assert CentsLayout(s, w, d1, d2) && s[0] == '-' by {
      assert s == ['-'] + w + ['.', d1, d2];
      assert |s| == |w| + 4;
      assert s[|s| - 3] == '.' && s[|s| - 2] == d1 && s[|s| - 1] == d2;
      assert s[1..|s| - 3] == w;
    }
    CentsText(s, w, d1, d2);
  }

  /** `s` ends with ".", `d1` and `d2`, and `w` is what lies before them, after a leading '-' if any. */
  predicate CentsLayout(s: string, w: string, d1: char, d2: char) {
    && |s| >= 4 && s[|s| - 3] == '.' && s[|s| - 2] == d1 && s[|s| - 1] == d2
    && (if s[0] == '-' then s[1..|s| - 3] == w else s[..|s| - 3] == w)
  }

  lemma CentsText(s: string, w: string, d1: char, d2: char)
    requires CentsLayout(s, w, d1, d2)
    requires |w| > 0 && AllDigits(w) && IsDigit(d1) && IsDigit(d2)
    ensures var v := DigitsValue(w) * 100 + DigitValue(d1) * 10 + DigitValue(d2);
      ParseCents(s) == Some(if s[0] == '-' then -v else v)
  {
  }
}

=== FILE: order_models.dfy ===
/**
 * Carts and their line items: the line total, the cart total and the item
 * count, and the one-cart-per-user rule of the cart table. Totals read the
 * product's current price; prices are integer cents, so every sum is exact.
 */
module OrderModels {
  import opened Wrappers
  import StoreModels

  type UserId = nat

  /** The quantity a new cart line starts with. */
  const DefaultQuantity: int := 1

  datatype CartItem = CartItem(product: StoreModels.Product, quantity: int)

  /** A cart, owned by one user, with the items whose foreign key points at it. */
  datatype Cart = Cart(id: nat, user: UserId, items: seq<CartItem>)

  /** The column constraint on a quantity: a non-negative integer. */
  predicate ItemValid(it: CartItem) {
    it.quantity >= 0
  }

  predicate ItemsValid(items: seq<CartItem>) {
    forall i :: 0 <= i < |items| ==> ItemValid(items[i])
  }

  /** A new line for `product`, created with the default quantity. */
  function NewItem(product: StoreModels.Product): (it: CartItem)
    ensures it.product == product && it.quantity == 1
    ensures ItemValid(it)
    ensures LineTotal(it) == product.price
  {
    CartItem(product, DefaultQuantity)
  }

  /** `CartItem.get_total`: the current price of the product times the quantity. */
  function LineTotal(it: CartItem): (r: int)
    ensures it.quantity == 0 ==> r == 0
    ensures it.quantity == 1 ==> r == it.product.price
    ensures it.product.price >= 0 && ItemValid(it) ==> r >= 0
  {
    it.product.price * it.quantity
  }

  function Quantity(it: CartItem): int {
    it.quantity
  }

  /** The sum of `f` over the items, added left to right from 0, as Python's `sum` does. */
  function SumOf(items: seq<CartItem>, f: CartItem -> int): (r: int)
    ensures |items| == 0 ==> r == 0
  {
    if |items| == 0 then 0 else SumOf(items[..|items| - 1], f) + f(items[|items| - 1])
  }

  /** A sum of non-negative terms is non-negative. */
  lemma {:induction false} SumOfNonNegative(items: seq<CartItem>, f: CartItem -> int)
    ensures (forall i :: 0 <= i < |items| ==> f(items[i]) >= 0) ==> SumOf(items, f) >= 0
  {
    if |items| > 0 {
      SumOfNonNegative(items[..|items| - 1], f);
    }
  }

  /** `Cart.get_total`. */
  function CartTotal(c: Cart): (r: int)
    ensures |c.items| == 0 ==> r == 0
    ensures ItemsValid(c.items) && (forall i :: 0 <= i < |c.items| ==> c.items[i].product.price >= 0) ==> r >= 0
  {
    SumOfNonNegative(c.items, LineTotal);
    SumOf(c.items, LineTotal)
  }

  /** `Cart.get_items_count`. */
  function ItemsCount(c: Cart): (r: int)
    ensures |c.items| == 0 ==> r == 0
    ensures ItemsValid(c.items) ==> r >= 0
  {
    SumOfNonNegative(c.items, Quantity);
    SumOf(c.items, Quantity)
  }

  /** With valid quantities, a cart counts 0 items exactly when every line has quantity 0. */
  lemma {:induction false} ItemsCountZero(c: Cart)
    requires ItemsValid(c.items)
    ensures ItemsCount(c) == 0 <==> forall i :: 0 <= i < |c.items| ==> c.items[i].quantity == 0
    decreases |c.items|
  {
    if |c.items| > 0 {
      var init := c.(items := c.items[..|c.items| - 1]);
      ItemsCountZero(init);
      assert ItemsCount(c) == ItemsCount(init) + c.items[|c.items| - 1].quantity;
    }
  }

  /** Adding a line raises the total by its line total and the count by its quantity. */
  lemma AddLine(c: Cart, it: CartItem)
    ensures CartTotal(c.(items := c.items + [it])) == CartTotal(c) + LineTotal(it)
    ensures ItemsCount(c.(items := c.items + [it])) == ItemsCount(c) + it.quantity
  {
    assert (c.items + [it])[..|c.items|] == c.items;
  }

  lemma {:induction false} SumOfConcat(a: seq<CartItem>, b: seq<CartItem>, f: CartItem -> int)
    ensures SumOf(a + b, f) == SumOf(a, f) + SumOf(b, f)
  {
    if |b| > 0 {
      SumOfConcat(a, b[..|b| - 1], f);
      assert (a + b)[..|a + b| - 1] == a + b[..|b| - 1];
    } else {
      assert a + b == a;
    }
  }

  lemma SumOfRemove(s: seq<CartItem>, k: nat, f: CartItem -> int)
    requires k < |s|
    ensures SumOf(s, f) == SumOf(s[..k] + s[k + 1..], f) + f(s[k])
  {
    var before, x, after := s[..k], [s[k]], s[k + 1..];
    SplitAround(s, k);
    calc {
      SumOf(s, f);
    == { SumOfConcat(before, x + after, f); }
      SumOf(before, f) + SumOf(x + after, f);
    == { SumOfConcat(x, after, f); SumOfSingle(s[k], f); }
      SumOf(before, f) + SumOf(after, f) + f(s[k]);
    == { SumOfConcat(before, after, f); }
      SumOf(before + after, f) + f(s[k]);
    }
  }

  lemma SplitAround(s: seq<CartItem>, k: nat)
    requires k < |s|
    ensures s == s[..k] + ([s[k]] + s[k + 1..])
  {
    assert s[k..] == [s[k]] + s[k + 1..];
    assert s == s[..k] + s[k..];
  }

  lemma SumOfSingle(y: CartItem, f: CartItem -> int)
    ensures SumOf([y], f) == f(y)
  {
    assert [y][..0] == [];
  }

  /** The sum does not depend on the order of the items. */
  lemma {:induction false} SumOfPermutation(a: seq<CartItem>, b: seq<CartItem>, f: CartItem -> int)
    requires multiset(a) == multiset(b)
    ensures SumOf(a, f) == SumOf(b, f)
  {
    if |a| > 0 {
      var x := a[|a| - 1];
      var a' := a[..|a| - 1];
      assert a == a' + [x];
      assert x in multiset(b);
      var k :| 0 <= k < |b| && b[k] == x;
      var b' := b[..k] + b[k + 1..];
      assert b == b[..k] + [x] + b[k + 1..];
      assert multiset(b') == multiset(b) - multiset{x};
      SumOfPermutation(a', b', f);
      SumOfRemove(b, k, f);
    } else {
      assert |b| == 0;
    }
  }

  /** Cart total and item count are the same whatever order the items come in. */
  lemma OrderIrrelevant(c: Cart, d: Cart)
    requires multiset(c.items) == multiset(d.items)
    ensures CartTotal(c) == CartTotal(d)
    ensures ItemsCount(c) == ItemsCount(d)
  {
    SumOfPermutation(c.items, d.items, LineTotal);
    SumOfPermutation(c.items, d.items, Quantity);
  }

  /** `n` copies of a single-unit line. */
  function UnitLines(product: StoreModels.Product, n: nat): (s: seq<CartItem>)
    ensures |s| == n
    ensures forall i :: 0 <= i < n ==> s[i] == NewItem(product)
  {
    if n == 0 then [] else UnitLines(product, n - 1) + [NewItem(product)]
  }

  /** A line of quantity `n` costs the same as `n` lines of one unit each. */
  lemma {:induction false} LineTotalIsUnitSum(product: StoreModels.Product, n: nat)
    ensures LineTotal(CartItem(product, n)) == SumOf(UnitLines(product, n), LineTotal)
  {
    if n > 0 {
      LineTotalIsUnitSum(product, n - 1);
      var s := UnitLines(product, n);
      assert s[..n - 1] == UnitLines(product, n - 1);
      assert SumOf(s, LineTotal) == SumOf(UnitLines(product, n - 1), LineTotal) + product.price;
      MulSucc(product.price, n - 1);
    }
  }

  lemma MulSucc(a: int, m: nat)
    ensures a * (m + 1) == a * m + a
  {
  }

  // ---------------------------------------------------------------------
  // The cart table: each cart's user field is one-to-one

  predicate OneCartPerUser(carts: seq<Cart>) {
    forall i, j :: 0 <= i < j < |carts| ==> carts[i].user != carts[j].user
  }

  predicate HasCart(carts: seq<Cart>, user: UserId) {
    exists i :: 0 <= i < |carts| && carts[i].user == user
  }

  /** `user.cart`: the cart whose owner is `user`, if there is one. */
  function CartOf(carts: seq<Cart>, user: UserId): (r: Option<Cart>)
    ensures r.Some? <==> HasCart(carts, user)
    ensures r.Some? ==> r.value in carts && r.value.user == user
  {
    if |carts| == 0 then None
    else if carts[0].user == user then Some(carts[0])
    else
      var r := CartOf(carts[1..], user);
      assert HasCart(carts, user) ==> HasCart(carts[1..], user) by {
        if HasCart(carts, user) {
          var i :| 0 <= i < |carts| && carts[i].user == user;
          assert carts[1..][i - 1].user == user;
        }
      }
      r
  }

  /** In a table with one cart per user, a user's cart is the row that names them. */
  lemma CartOfIsTheRow(carts: seq<Cart>, user: UserId, i: nat)
    requires OneCartPerUser(carts)
    requires i < |carts| && carts[i].user == user
    ensures CartOf(carts, user) == Some(carts[i])
  {
    var c := CartOf(carts, user).value;
    var j :| 0 <= j < |carts| && carts[j] == c;
  }

  /** Inserting a cart: the database refuses a second cart for the same user. */
  function CreateCart(carts: seq<Cart>, user: UserId, id: nat): (r: Result<seq<Cart>, StoreModels.DbError>)
    ensures r.Failure? <==> HasCart(carts, user)
    ensures r.Success? ==> r.value == carts + [Cart(id, user, [])]
    ensures OneCartPerUser(carts) && r.Success? ==> OneCartPerUser(r.value)
  {
    if HasCart(carts, user) then Failure(StoreModels.IntegrityError)
    else Success(carts + [Cart(id, user, [])])
  }
}

=== FILE: order_views.dfy ===
/**
 * The mock order-status endpoint: the `order_id` query parameter decides
 * between an error answer and a status whose wording follows the parity
 * of the id.
 */
module OrderViews {
  import opened Wrappers
  import Decimal

  const MissingIdError: string := "Please provide an order_id."
  const Shipped: string := "Shipped"
  const Processing: string := "Processing"

  datatype Response =
    /** JSON answer with status 200. */
    | StatusResponse(orderId: string, status: string, message: string)
    /** JSON error answer with an explicit HTTP status. */
    | ErrorResponse(error: string, httpStatus: int)
    /** The id was not an integer Python reads, so it raised `ValueError`; the framework answers 500. */
    | ServerError

  /** Python's `a // b`: the quotient rounded down. */
  function PyDiv(a: int, b: int): int
    requires b != 0
  {
    if b < 0 && a % b != 0 then a / b - 1 else a / b
  }

  /** Python's `a % b`: the remainder that goes with `a // b`; it takes the sign of the divisor. */
  function PyMod(a: int, b: int): (r: int)
    requires b != 0
    ensures b > 0 ==> 0 <= r < b
    ensures b < 0 ==> b < r <= 0
    ensures a == b * PyDiv(a, b) + r
  {
    var m := a % b;
    if b < 0 && m != 0 then
      MulPred(b, a / b);
      m + b
    else m
  }

  lemma MulPred(b: int, q: int)
    ensures b * (q - 1) == b * q - b
  {
  }

  /** The message the endpoint pairs with a status. */
  function StatusMessage(orderId: string, shipped: bool): string {
    if shipped then "Order " + orderId + " has been shipped." else "Order " + orderId + " is being processed."
  }

  /** `order_status`: `orderId` is the raw `order_id` query parameter, if given. */
  function OrderStatus(orderId: Option<string>): (r: Response)
    ensures r.ErrorResponse? <==> orderId.None? || orderId.value == ""
    ensures r.ErrorResponse? ==> r.httpStatus == 400 && r.error == MissingIdError
    ensures r.ServerError? <==> orderId.Some? && orderId.value != "" && Decimal.ParseInt(orderId.value).None?
    ensures r.StatusResponse? ==> orderId == Some(r.orderId)
    ensures r.StatusResponse? ==> Decimal.ParseInt(r.orderId).Some?
    ensures r.StatusResponse? ==>
      (r.status == Shipped <==> PyMod(Decimal.ParseInt(r.orderId).value, 2) == 0)
    ensures r.StatusResponse? ==> r.status == Shipped || r.status == Processing
    ensures r.StatusResponse? ==> r.message == StatusMessage(r.orderId, r.status == Shipped)
  {
    match orderId
    case None => ErrorResponse(MissingIdError, 400)
    case Some(text) =>
      if text == "" then ErrorResponse(MissingIdError, 400)
      else match Decimal.ParseInt(text)
        case None => ServerError
        case Some(n) =>
          StatusResponse(
            text,
            if PyMod(n, 2) == 0 then Shipped else Processing,
            if PyMod(n, 2) != 0 then StatusMessage(text, false) else StatusMessage(text, true))
  }

  /**
   * For an id written the way Python writes integers, the status follows
   * its parity; an id longer than Python's digit limit is a server error.
   */
  lemma StatusFollowsParity(n: int)
    ensures var r := OrderStatus(Some(Decimal.IntToString(n)));
      if |Decimal.NatToString(Decimal.Abs(n))| <= Decimal.MaxStrDigits then
        r.StatusResponse? && r.status == if n % 2 == 0 then Shipped else Processing
      else r.ServerError?
  {
    Decimal.IntToStringRoundTrip(n);
  }

  /** An id that starts with a separator control (28 to 31), such as "\x1c5", is a server error. */
  lemma SeparatorIdIsServerError(c: char, rest: string)
    requires 28 <= c as int <= 31
    ensures OrderStatus(Some([c] + rest)) == ServerError
  {
    Decimal.SeparatorRefused(c, rest);
  }

  /** A negative odd id is still "Processing": Python's remainder by 2 is 1, not -1. */
  lemma NegativeOddIsProcessing()
    ensures Decimal.IntToString(-3) == "-3"
    ensures OrderStatus(Some(Decimal.IntToString(-3))).status == Processing
  {
    assert Decimal.NatToString(3) == "3";
    StatusFollowsParity(-3);
  }
}

=== FILE: popular_products.dfy ===
/**
 * The `find_popular_products` management command: products are scored by
 * the number of distinct carts that hold them, the three best are kept
 * and printed with their rank, an optional cart count and their price.
 */
module PopularProducts {
  import opened Wrappers
  import Decimal
  import Sorting
  import StoreModels
  import OrderModels

  type Product = StoreModels.Product
  type Cart = OrderModels.Cart

  /** How many products the command reports. */
  const TopCount: nat := 3

  // ---------------------------------------------------------------------
  // Scores

  /** Some item of cart `c` refers to `product`. */
  predicate Holds(c: Cart, product: Product) {
    exists j :: 0 <= j < |c.items| && c.items[j].product.id == product.id
  }

  /** The ids of the carts holding `product`. */
  function CartsHolding(carts: seq<Cart>, product: Product): set<nat> {
    set i | 0 <= i < |carts| && Holds(carts[i], product) :: carts[i].id
  }

  /** The product's score: the number of distinct carts holding it. */
  function Score(carts: seq<Cart>, product: Product): (n: nat)
    ensures n > 0 <==> exists i :: 0 <= i < |carts| && Holds(carts[i], product)
  {
    HoldingNonEmpty(carts, product);
    |CartsHolding(carts, product)|
  }

  lemma HoldingNonEmpty(carts: seq<Cart>, product: Product)
    ensures CartsHolding(carts, product) != {} <==> exists i :: 0 <= i < |carts| && Holds(carts[i], product)
  {
    if exists i :: 0 <= i < |carts| && Holds(carts[i], product) {
      var i :| 0 <= i < |carts| && Holds(carts[i], product);
      assert carts[i].id in CartsHolding(carts, product);
    }
  }

  /** Cart ids are primary keys. */
  predicate DistinctCartIds(carts: seq<Cart>) {
    forall i, j :: 0 <= i < j < |carts| ==> carts[i].id != carts[j].id
  }

  /** Cart `k` with one more item. */
  function AddItem(carts: seq<Cart>, k: nat, it: OrderModels.CartItem): (r: seq<Cart>)
    requires k < |carts|
    ensures |r| == |carts|
  {
    carts[k := carts[k].(items := carts[k].items + [it])]
  }

  /** Another item of a product its cart already holds does not change the product's score. */
  lemma ScoreIgnoresRepeats(carts: seq<Cart>, k: nat, it: OrderModels.CartItem, product: Product)
    requires k < |carts| && Holds(carts[k], product)
    ensures Score(AddItem(carts, k, it), product) == Score(carts, product)
  {
    var after := AddItem(carts, k, it);
    forall i | 0 <= i < |carts|
      ensures Holds(after[i], product) == Holds(carts[i], product)
    {
      if i == k {
        var j :| 0 <= j < |carts[k].items| && carts[k].items[j].product.id == product.id;
        assert after[k].items[j] == carts[k].items[j];
      }
    }
    assert CartsHolding(after, product) == CartsHolding(carts, product);
  }

  /** The first item of a product in a cart raises the product's score by one. */
  lemma ScoreCountsNewCart(carts: seq<Cart>, k: nat, it: OrderModels.CartItem, product: Product)
    requires DistinctCartIds(carts)
    requires k < |carts| && !Holds(carts[k], product)
    requires it.product.id == product.id
    ensures Score(AddItem(carts, k, it), product) == Score(carts, product) + 1
  {
    var after := AddItem(carts, k, it);
    assert after[k].items[|carts[k].items|] == it;
    forall i | 0 <= i < |carts| && i != k
      ensures Holds(after[i], product) == Holds(carts[i], product)
    {
    }
    var before := CartsHolding(carts, product);
    assert carts[k].id !in before;
    assert CartsHolding(after, product) == before + {carts[k].id};
  }

  // ---------------------------------------------------------------------
  // Ranking

  /** A reported product and its score. */
  datatype Ranked = Ranked(product: Product, cartCount: nat)

  /** The product id of an entry, the key the query groups by. */
  function RankedId(x: Ranked): Option<nat> {
    x.product.id
  }

  /** The products that are in at least one cart, each with its score, in table order. */
  function Scored(carts: seq<Cart>, products: seq<Product>): (r: seq<Ranked>)
    ensures forall x :: x in r <==> x.product in products && x.cartCount == Score(carts, x.product) && x.cartCount > 0
    ensures StoreModels.DistinctIds(products) ==> Sorting.DistinctBy(r, RankedId)
  {
    if |products| == 0 then []
    else
      var p := products[0];
      var rest := Scored(carts, products[1..]);
      assert forall q :: q in products <==> q == p || q in products[1..];
      var n := Score(carts, p);
      if n > 0 then
        FirstIdNotInRest(Ranked(p, n), products, rest);
        [Ranked(p, n)] + rest
      else rest
  }

  /** The first product's id is not the id of any entry drawn from the other products. */
  lemma FirstIdNotInRest(x: Ranked, products: seq<Product>, rest: seq<Ranked>)
    requires |products| > 0 && x.product == products[0]
    requires forall y :: y in rest ==> y.product in products[1..]
    requires StoreModels.DistinctIds(products) ==> Sorting.DistinctBy(rest, RankedId)
    ensures StoreModels.DistinctIds(products) ==> Sorting.DistinctBy([x] + rest, RankedId)
  {
    if StoreModels.DistinctIds(products) {
      var s := [x] + rest;
      forall i, j | 0 <= i < j < |s|
        ensures RankedId(s[i]) != RankedId(s[j])
      {
        assert s[j] == rest[j - 1] && s[j] in rest;
        if i == 0 {
          var m :| 0 <= m < |products[1..]| && products[1..][m] == s[j].product;
          assert products[m + 1] == s[j].product;
        } else {
          assert s[i] == rest[i - 1];
        }
      }
    }
  }

  /** Higher scores first. */
  function ByCountDescending(): (Ranked, Ranked) -> bool {
    (a: Ranked, b: Ranked) => a.cartCount >= b.cartCount
  }

  lemma ByCountIsTotalPreorder()
    ensures Sorting.TotalPreorder(ByCountDescending())
  {
  }

  /** The first `TopCount` entries, or all of them when there are fewer. */
  function Top<T>(s: seq<T>): (r: seq<T>)
    ensures |r| <= TopCount && r <= s
    ensures |s| <= TopCount ==> r == s
    ensures |s| > TopCount ==> |r| == TopCount
  {
    if |s| <= TopCount then s else s[..TopCount]
  }

  /** The query of the command: the scored products, highest score first, cut to three. */
  function Popular(carts: seq<Cart>, products: seq<Product>): (r: seq<Ranked>)
    requires StoreModels.DistinctIds(products)
    ensures |r| <= TopCount
    ensures forall i, j :: 0 <= i < j < |r| ==> r[i].product.id != r[j].product.id
    ensures forall i :: 0 <= i < |r| ==>
      r[i].product in products && r[i].cartCount == Score(carts, r[i].product) && r[i].cartCount >= 1
    ensures forall i, j :: 0 <= i < j < |r| ==> r[i].cartCount >= r[j].cartCount
    ensures forall p :: p in products && Score(carts, p) > 0 ==>
      Ranked(p, Score(carts, p)) in r || (|r| == TopCount && Score(carts, p) <= r[TopCount - 1].cartCount)
    ensures |r| == 0 <==> forall p :: p in products ==> Score(carts, p) == 0
  {
    var scored := Scored(carts, products);
    ByCountIsTotalPreorder();
    var sorted := Sorting.SortBy(scored, ByCountDescending());
    var r := Top(sorted);
    RankingOrdered(carts, products, scored, sorted, r);
    RankingMembers(carts, products, scored, sorted, r);
    r
  }

  /** The ranking's shape: at most three entries, distinct products, scores not increasing. */
  lemma RankingOrdered(carts: seq<Cart>, products: seq<Product>, scored: seq<Ranked>, sorted: seq<Ranked>, r: seq<Ranked>)
    requires StoreModels.DistinctIds(products)
    requires scored == Scored(carts, products)
    requires multiset(scored) == multiset(sorted) && Sorting.SortedBy(sorted, ByCountDescending())
    requires r == Top(sorted)
    ensures |r| <= TopCount
    ensures forall i, j :: 0 <= i < j < |r| ==> r[i].product.id != r[j].product.id
    ensures forall i, j :: 0 <= i < j < |r| ==> r[i].cartCount >= r[j].cartCount
  {
    TopOfSorted(sorted, r);
    TopDistinct(scored, sorted, r);
  }

  /** The ranking's contents: true scores of catalogue products, and nothing left out outranks it. */
  lemma RankingMembers(carts: seq<Cart>, products: seq<Product>, scored: seq<Ranked>, sorted: seq<Ranked>, r: seq<Ranked>)
    requires scored == Scored(carts, products)
    requires multiset(scored) == multiset(sorted) && Sorting.SortedBy(sorted, ByCountDescending())
    requires r == Top(sorted)
    ensures forall i :: 0 <= i < |r| ==>
      r[i].product in products && r[i].cartCount == Score(carts, r[i].product) && r[i].cartCount >= 1
    ensures forall p :: p in products && Score(carts, p) > 0 ==>
      Ranked(p, Score(carts, p)) in r || (|r| == TopCount && Score(carts, p) <= r[TopCount - 1].cartCount)
    ensures |r| == 0 <==> forall p :: p in products ==> Score(carts, p) == 0
  {
    TopOfSorted(sorted, r);
    TopMembers(scored, sorted, r);
    forall p | p in products && Score(carts, p) > 0
      ensures Ranked(p, Score(carts, p)) in sorted
    {
      assert Ranked(p, Score(carts, p)) in scored;
    }
    if |r| > 0 {
      assert r[0] in scored;
    }
  }

  /** The cut holds only scored entries, and it is empty exactly when nothing scored. */
  lemma TopMembers(scored: seq<Ranked>, sorted: seq<Ranked>, r: seq<Ranked>)
    requires multiset(scored) == multiset(sorted)
    requires r == Top(sorted)
    ensures forall i :: 0 <= i < |r| ==> r[i] in scored
    ensures forall x :: x in scored <==> x in sorted
    ensures |r| == 0 <==> |scored| == 0
  {
    SameMembers(scored, sorted);
    forall i | 0 <= i < |r|
      ensures r[i] in scored
    {
      assert r[i] == sorted[i];
    }
    assert |multiset(scored)| == |multiset(sorted)|;
  }

  /** The reported entries name distinct products: sorting and cutting keep ids distinct. */
  lemma TopDistinct(scored: seq<Ranked>, sorted: seq<Ranked>, r: seq<Ranked>)
    requires multiset(scored) == multiset(sorted)
    requires Sorting.DistinctBy(scored, RankedId)
    requires r <= sorted
    ensures forall i, j :: 0 <= i < j < |r| ==> r[i].product.id != r[j].product.id
  {
    Sorting.PermutationKeepsDistinct(scored, sorted, RankedId);
    forall i, j | 0 <= i < j < |r|
      ensures r[i].product.id != r[j].product.id
    {
      assert r[i] == sorted[i] && r[j] == sorted[j];
      assert RankedId(sorted[i]) != RankedId(sorted[j]);
    }
  }

  lemma SameMembers(a: seq<Ranked>, b: seq<Ranked>)
    requires multiset(a) == multiset(b)
    ensures forall x :: x in a <==> x in b
  {
    assert forall x :: x in a <==> x in multiset(a);
    assert forall x :: x in b <==> x in multiset(b);
  }

  /**
   * The cut keeps the order, and anything in the sorted list that did not
   * make it scores no more than the last entry kept.
   */
  lemma TopOfSorted(sorted: seq<Ranked>, r: seq<Ranked>)
    requires Sorting.SortedBy(sorted, ByCountDescending())
    requires r == Top(sorted)
    ensures forall i, j :: 0 <= i < j < |r| ==> r[i].cartCount >= r[j].cartCount
    ensures forall x :: x in sorted ==> x in r || (|r| == TopCount && x.cartCount <= r[TopCount - 1].cartCount)
  {
    forall i, j | 0 <= i < j < |r|
      ensures r[i].cartCount >= r[j].cartCount
    {
      assert ByCountDescending()(sorted[i], sorted[j]);
    }
    forall x | x in sorted
      ensures x in r || (|r| == TopCount && x.cartCount <= r[TopCount - 1].cartCount)
    {
      var k :| 0 <= k < |sorted| && sorted[k] == x;
      if k >= TopCount {
        assert ByCountDescending()(sorted[TopCount - 1], sorted[k]);
      } else {
        assert r[k] == x;
      }
    }
  }

  // ---------------------------------------------------------------------
  // Output

  const StartMessage: string := "Finding most popular products..."
  const NoProductsWarning: string := "No products found in any carts."
  const TopHeading: string := "\nTop 3 most popular products:\n"
  const SummaryHeading: string := "\nSummary:"
  const CartsLabel: string := "Total number of carts: "
  const ProductsLabel: string := "Total number of products: "

  /** "cart" for one cart, "carts" for any other count. */
  function CartWord(n: nat): (w: string)
    ensures w == "cart" <==> n == 1
    ensures w == "cart" || w == "carts"
  {
    if n == 1 then "cart" else "carts"
  }

  /** The part `--show-count` adds to a line: " (<n> cart)" or " (<n> carts)". */
  function CountNote(n: nat): string {
    " (" + Decimal.NatToString(n) + " " + CartWord(n) + ")"
  }

  /** The part every listing line ends with: " - <price> USD". */
  function PriceNote(cents: int): string {
    " - " + Decimal.FormatCents(cents) + " USD"
  }

  predicate EndsWith(s: string, t: string) {
    |t| <= |s| && s[|s| - |t|..] == t
  }

  /** One listing line: "<rank>. <name>[ (<n> cart|carts)] - <price> USD"; its rank reads back. */
  function ProductLine(rank: nat, x: Ranked, showCount: bool): (line: string)
    ensures RankOf(line) == Some(rank)
  {
    var rankText := Decimal.NatToString(rank);
    var head := rankText + ". " + x.product.name;
    var line := head + CountPart(x.cartCount, showCount) + PriceNote(x.product.price);
    assert line[..|rankText|] == rankText && line[|rankText|] == '.' by {
      assert line[..|head|] == head;
      assert head[..|rankText|] == rankText && head[|rankText|] == '.';
    }
    Decimal.FirstIndexAfterDigits(rankText, line, '.');
    Decimal.NatToStringRoundTrip(rank);
    line
  }

  /** The count part of a line: present only when `--show-count` is given. */
  function CountPart(n: nat, showCount: bool): string {
    if showCount then CountNote(n) else ""
  }

  /**
   * A listing line starts with the rank and the name and ends with the
   * price, which reads back; the cart count sits in between exactly when
   * `showCount` is set.
   */
  lemma ProductLineParts(rank: nat, x: Ranked, showCount: bool)
    ensures var line := ProductLine(rank, x, showCount);
      && PriceOf(line) == Some(x.product.price)
      && Decimal.NatToString(rank) + ". " + x.product.name <= line
      && EndsWith(line, PriceNote(x.product.price))
      && (showCount ==> EndsWith(line, CountNote(x.cartCount) + PriceNote(x.product.price)))
      && |line| == |Decimal.NatToString(rank)| + 2 + |x.product.name|
        + (if showCount then |CountNote(x.cartCount)| else 0) + |PriceNote(x.product.price)|
  {
    var head := Decimal.NatToString(rank) + ". " + x.product.name;
    var count := CountPart(x.cartCount, showCount);
    var note := PriceNote(x.product.price);
    var line := ProductLine(rank, x, showCount);
    assert line == head + count + note;
    ThreeParts(head, count, note, line);
    PriceReadBack(head + count, x.product.price);
  }

  lemma ThreeParts(a: string, b: string, c: string, s: string)
    requires s == a + b + c
    ensures a <= s && EndsWith(s, c) && EndsWith(s, b + c)
    ensures |s| == |a| + |b| + |c|
  {
    assert s[..|a|] == a;
    assert s[|s| - |c|..] == c;
    assert s[|s| - |b + c|..] == b + c;
  }

  /** The price a listing line ends with: the word between its last space and the closing " USD". */
  function PriceOf(line: string): Option<int> {
    if |line| < 4 || line[|line| - 4..] != " USD" then None
    else
      var front := line[..|line| - 4];
      match Decimal.LastIndex(front, ' ')
      case None => None
      case Some(k) => Decimal.ParseCents(front[k + 1..])
  }

  /** Whatever comes before it, the price part of a line reads back as the price. */
  lemma PriceReadBack(body: string, cents: int)
    ensures PriceOf(body + PriceNote(cents)) == Some(cents)
  {
    var price := Decimal.FormatCents(cents);
    assert body + PriceNote(cents) == body + " - " + price + " USD";
    WordBeforeUsd(body, price);
    Decimal.FormatCentsRoundTrip(cents);
  }

  /** `PriceOf` reads the word between " - " and " USD" when that word holds no space. */
  lemma WordBeforeUsd(body: string, word: string)
    requires forall k :: 0 <= k < |word| ==> word[k] != ' '
    ensures PriceOf(body + " - " + word + " USD") == Decimal.ParseCents(word)
  {
    var line := body + " - " + word + " USD";
    var front := line[..|line| - 4];
    assert line[|line| - 4..] == " USD";
    assert front == body + " -" + [' '] + word;
    Decimal.LastIndexBeforeWord(front, body + " -", word, ' ');
    assert front[|body| + 3..] == word;
  }

  /** The rank a listing line starts with: the digits before its first '.'. */
  function RankOf(line: string): Option<nat> {
    match Decimal.FirstIndex(line, '.')
    case None => None
    case Some(k) =>
      if k > 0 && Decimal.AllDigits(line[..k]) then Some(Decimal.DigitsValue(line[..k])) else None
  }

  /** A line that does not start with a digit carries no rank. */
  lemma NoRankWithoutLeadingDigit(line: string)
    requires |line| > 0 && !Decimal.IsDigit(line[0])
    ensures RankOf(line) == None
  {
    match Decimal.FirstIndex(line, '.')
    case None =>
    case Some(k) =>
      if k > 0 {
        assert line[..k][0] == line[0];
      }
  }

  /** One line per product, numbered from `first`. */
  function Listing(ranking: seq<Ranked>, first: nat, showCount: bool): (lines: seq<string>)
    ensures |lines| == |ranking|
    ensures forall i :: 0 <= i < |ranking| ==> lines[i] == ProductLine(first + i, ranking[i], showCount)
  {
    if |ranking| == 0 then []
    else [ProductLine(first, ranking[0], showCount)] + Listing(ranking[1..], first + 1, showCount)
  }

  /**
   * The lines `handle` writes, styling and translation aside: an empty
   * ranking gives the start message and the warning only; otherwise the
   * heading, the ranked lines from rank 1, and the summary, which
   * `ReportSummary` describes.
   */
  function Report(ranking: seq<Ranked>, showCount: bool, totalCarts: nat, totalProducts: nat)
    : (lines: seq<string>)
    ensures |ranking| == 0 ==> lines == [StartMessage, NoProductsWarning]
    ensures |ranking| > 0 ==> |lines| == |ranking| + 5 && lines[1] == TopHeading
    ensures |ranking| > 0 ==> forall i :: 2 <= i < |ranking| + 2 ==> RankOf(lines[i]) == Some(i - 1)
    ensures |ranking| > 0 ==> forall i :: 0 <= i < |ranking| ==> lines[i + 2] == ProductLine(i + 1, ranking[i], showCount)
    ensures lines[0] == StartMessage
    ensures NoProductsWarning in lines <==> |ranking| == 0
  {
    if |ranking| == 0 then [StartMessage, NoProductsWarning]
    else
      var listing := Listing(ranking, 1, showCount);
      var summary := [
        SummaryHeading,
        CartsLabel + Decimal.NatToString(totalCarts),
        ProductsLabel + Decimal.NatToString(totalProducts)];
      var lines := [StartMessage, TopHeading] + listing + summary;
      assert forall i :: 0 <= i < |summary| ==> |summary[i]| > 0 && summary[i][0] != 'N' by {
        assert summary[0][0] == '\n' && summary[1][0] == 'T' && summary[2][0] == 'T';
      }
      ReportLayout(listing, summary, lines);
      lines
  }

  /**
   * The summary that closes a non-empty report: its heading, then the
   * number of carts and the number of products, each after its label and
   * reading back as the count.
   */
  lemma ReportSummary(ranking: seq<Ranked>, showCount: bool, totalCarts: nat, totalProducts: nat)
    requires |ranking| > 0
    ensures var lines := Report(ranking, showCount, totalCarts, totalProducts);
      var n := |ranking| + 2;
      && lines[n] == SummaryHeading
      && CountAfter(lines[n + 1], CartsLabel) == Some(totalCarts)
      && CountAfter(lines[n + 2], ProductsLabel) == Some(totalProducts)
  {
    var lines := Report(ranking, showCount, totalCarts, totalProducts);
    var listing := Listing(ranking, 1, showCount);
    var summary := [
      SummaryHeading,
      CartsLabel + Decimal.NatToString(totalCarts),
      ProductsLabel + Decimal.NatToString(totalProducts)];
    assert lines == [StartMessage, TopHeading] + listing + summary;
    var n := |ranking| + 2;
    assert lines[n] == summary[0] && lines[n + 1] == summary[1] && lines[n + 2] == summary[2];
    LabelledCount(CartsLabel, totalCarts);
    LabelledCount(ProductsLabel, totalProducts);
  }

  /** The count a summary line gives after `label`, if the line starts with it and the rest is digits. */
  function CountAfter(line: string, tag: string): Option<nat> {
    if tag <= line && |line| > |tag| && Decimal.AllDigits(line[|tag|..]) then
      Some(Decimal.DigitsValue(line[|tag|..]))
    else None
  }

  lemma LabelledCount(tag: string, n: nat)
    ensures CountAfter(tag + Decimal.NatToString(n), tag) == Some(n)
  {
    var line := tag + Decimal.NatToString(n);
    assert line[..|tag|] == tag;
    assert line[|tag|..] == Decimal.NatToString(n);
    Decimal.NatToStringRoundTrip(n);
  }

  lemma ReportLayout(listing: seq<string>, summary: seq<string>, lines: seq<string>)
    requires lines == [StartMessage, TopHeading] + listing + summary
    requires forall i :: 0 <= i < |listing| ==> RankOf(listing[i]) == Some(1 + i)
    requires forall i :: 0 <= i < |summary| ==> |summary[i]| > 0 && summary[i][0] != 'N'
    ensures forall i :: 2 <= i < |listing| + 2 ==> RankOf(lines[i]) == Some(i - 1)
    ensures forall i :: 0 <= i < |listing| ==> lines[i + 2] == listing[i]
    ensures NoProductsWarning !in lines
  {
    forall i | 2 <= i < |listing| + 2
      ensures RankOf(lines[i]) == Some(i - 1)
    {
      assert lines[i] == listing[i - 2];
    }
    forall i | 0 <= i < |lines|
      ensures lines[i] != NoProductsWarning
    {
      if 2 <= i < |listing| + 2 {
        assert lines[i] == listing[i - 2];
        NoRankWithoutLeadingDigit(NoProductsWarning);
      } else if i >= |listing| + 2 {
        assert lines[i] == summary[i - |listing| - 2];
        assert NoProductsWarning[0] == 'N';
      } else {
        assert lines[i][0] != 'N';
      }
    }
  }

  /** The rank labels of a report are 1, 2, 3, in that order. */
  lemma RankLabelsInOrder(carts: seq<Cart>, products: seq<Product>, showCount: bool, totalCarts: nat, totalProducts: nat)
    requires StoreModels.DistinctIds(products)
    ensures var r := Popular(carts, products);
      var lines := Report(r, showCount, totalCarts, totalProducts);
      forall i :: 2 <= i < |r| + 2 ==> RankOf(lines[i]) == Some(i - 1) && i - 1 <= TopCount
  {
  }

  /** `get_cart_percentage`: 0 when there are no carts, else the share of carts as a percentage. */
  function CartPercentage(cartCount: int, totalCarts: int): (r: real)
    ensures totalCarts == 0 ==> r == 0.0
    ensures totalCarts != 0 ==> r * (totalCarts as real) == (cartCount as real) * 100.0
  {
    if totalCarts == 0 then 0.0 else ((cartCount as real) / (totalCarts as real)) * 100.0
  }

  /** A count of carts out of the total is between 0 and 100 percent. */
  lemma PercentageBounds(cartCount: int, totalCarts: int)
    requires 0 <= cartCount <= totalCarts
    ensures 0.0 <= CartPercentage(cartCount, totalCarts) <= 100.0
  {
  }
}

=== FILE: sorting.dfy ===
/**
 * Ordering a sequence by a total preorder. A database `ORDER BY` promises
 * only that the rows come out as a permutation of the input, ordered by
 * the key; rows with equal keys may come in any order. Insertion sort is
 * one such order.
 */
module Sorting {

  /** `le` compares every pair of values and is transitive. */
  ghost predicate TotalPreorder<T(!new)>(le: (T, T) -> bool) {
    && (forall a, b :: le(a, b) || le(b, a))
    && (forall a, b, c :: le(a, b) && le(b, c) ==> le(a, c))
  }

  predicate SortedBy<T>(s: seq<T>, le: (T, T) -> bool) {
    forall i, j :: 0 <= i < j < |s| ==> le(s[i], s[j])
  }

  /** Puts `x` before the first element it is not above. */
  function Insert<T(!new)>(x: T, s: seq<T>, le: (T, T) -> bool): (r: seq<T>)
    requires TotalPreorder(le)
    requires SortedBy(s, le)
    ensures SortedBy(r, le)
    ensures multiset(r) == multiset(s) + multiset{x}
  {
    if |s| == 0 then [x]
    else if le(x, s[0]) then [x] + s
    else
      var rest := Insert(x, s[1..], le);
      assert s == [s[0]] + s[1..];
      BelowAll(s[0], x, s[1..], rest, le);
      [s[0]] + rest
  }

  lemma BelowAll<T(!new)>(y: T, x: T, s: seq<T>, r: seq<T>, le: (T, T) -> bool)
    requires TotalPreorder(le)
    requires le(y, x)
    requires forall k :: 0 <= k < |s| ==> le(y, s[k])
    requires multiset(r) == multiset(s) + multiset{x}
    ensures forall k :: 0 <= k < |r| ==> le(y, r[k])
  {
    forall k | 0 <= k < |r|
      ensures le(y, r[k])
    {
      assert r[k] in multiset(r);
      if r[k] != x {
        assert r[k] in multiset(s);
        var m :| 0 <= m < |s| && s[m] == r[k];
      }
    }
  }

  /** A permutation of `s` ordered by `le`. */
  function SortBy<T(!new)>(s: seq<T>, le: (T, T) -> bool): (r: seq<T>)
    requires TotalPreorder(le)
    ensures SortedBy(r, le)
    ensures multiset(r) == multiset(s)
  {
    if |s| == 0 then []
    else
      assert s == [s[0]] + s[1..];
      Insert(s[0], SortBy(s[1..], le), le)
  }

  /** No two elements of `s` share a key. */
  predicate DistinctBy<T, K(==)>(s: seq<T>, key: T -> K) {
    forall i, j :: 0 <= i < j < |s| ==> key(s[i]) != key(s[j])
  }

  /** Reordering keeps keys distinct. */
  lemma {:induction false} PermutationKeepsDistinct<T, K>(a: seq<T>, b: seq<T>, key: T -> K)
    requires multiset(a) == multiset(b)
    requires DistinctBy(a, key)
    ensures DistinctBy(b, key)
    decreases |b|
  {
    if |b| > 0 {
      var x := b[0];
      assert x in multiset(a);
      var k :| 0 <= k < |a| && a[k] == x;
      var rest := a[..k] + a[k + 1..];
      RemoveOne(a, k);
      assert b == [x] + b[1..];
      assert multiset(rest) == multiset(b[1..]);
      RemoveKeepsDistinct(a, k, key);
      PermutationKeepsDistinct(rest, b[1..], key);
      PrependDistinct(x, b[1..], multiset(rest), key);
    }
  }

  /** Putting `x` in front of a list keeps keys distinct when no element of the list has its key. */
  lemma PrependDistinct<T, K>(x: T, tail: seq<T>, pool: multiset<T>, key: T -> K)
    requires DistinctBy(tail, key)
    requires multiset(tail) == pool
    requires forall y :: y in pool ==> key(y) != key(x)
    ensures DistinctBy([x] + tail, key)
  {
    var b := [x] + tail;
    forall i, j | 0 <= i < j < |b|
      ensures key(b[i]) != key(b[j])
    {
      assert b[j] == tail[j - 1];
      if i > 0 {
        assert b[i] == tail[i - 1];
      } else {
        assert b[j] in multiset(tail);
      }
    }
  }

  lemma RemoveOne<T>(a: seq<T>, k: nat)
    requires k < |a|
    ensures multiset(a[..k] + a[k + 1..]) == multiset(a) - multiset{a[k]}
  {
    assert a == a[..k] + [a[k]] + a[k + 1..];
  }

  /** Dropping element `k` keeps keys distinct, and no remaining element has its key. */
  lemma RemoveKeepsDistinct<T, K>(a: seq<T>, k: nat, key: T -> K)
    requires k < |a| && DistinctBy(a, key)
    ensures DistinctBy(a[..k] + a[k + 1..], key)
    ensures forall y :: y in multiset(a[..k] + a[k + 1..]) ==> key(y) != key(a[k])
  {
    var rest := a[..k] + a[k + 1..];
    forall i, j | 0 <= i < j < |rest|
      ensures key(rest[i]) != key(rest[j])
    {
      var i' := if i < k then i else i + 1;
      var j' := if j < k then j else j + 1;
      assert rest[i] == a[i'] && rest[j] == a[j'];
    }
    forall y | y in multiset(rest)
      ensures key(y) != key(a[k])
    {
      var m :| 0 <= m < |rest| && rest[m] == y;
      var m' := if m < k then m else m + 1;
      assert a[m'] == y;
    }
  }
}

=== FILE: store_models.dfy ===
/**
 * The catalogue entities of the store: categories and products, the
 * field constraints on a product's price and stock, and the slug rule
 * both entities apply when they are saved. Django's `slugify` is a
 * function parameter about which nothing is assumed.
 */
module StoreModels {
  import opened Wrappers
  import Decimal

  /** The price column: at most ten digits, two of them after the point. */
  const PriceMaxDigits: nat := 10
  const PriceDecimalPlaces: nat := 2

  datatype Category = Category(id: Option<nat>, name: string, description: string, slug: string)

  /**
   * A product. `price` is the decimal price in hundredths (cents), so all
   * arithmetic on it is exact; `createdAt` is the creation timestamp as a
   * number that orders like the clock.
   */
  datatype Product = Product(
    id: Option<nat>,
    name: string,
    description: string,
    category: Category,
    price: int,
    stock: int,
    createdAt: int,
    slug: string)

  /** The price, written with two decimal places, has at most ten digits. */
  predicate PriceFits(cents: int) {
    |Decimal.NatToString(if cents < 0 then -cents else cents)| <= PriceMaxDigits
  }

  /** The constraints the product table puts on a row: a representable price, a non-negative stock. */
  predicate FieldsValid(p: Product) {
    PriceFits(p.price) && p.stock >= 0
  }

  /**
   * A price fits exactly when its magnitude is below 10^10 cents, that is
   * when its whole part has at most eight digits.
   */
  lemma PriceFitsBound(cents: int)
    ensures PriceFits(cents) <==> -(Decimal.Pow10(PriceMaxDigits) as int) < cents < Decimal.Pow10(PriceMaxDigits)
    ensures Decimal.Pow10(PriceMaxDigits) == 10_000_000_000
    ensures PriceFits(cents) <==>
      Decimal.Abs(cents) / Decimal.Pow10(PriceDecimalPlaces) < Decimal.Pow10(PriceMaxDigits - PriceDecimalPlaces)
  {
    Decimal.DigitCountBound(if cents < 0 then -cents else cents, PriceMaxDigits);
    assert Decimal.Pow10(PriceDecimalPlaces) == 100;
    assert Decimal.Pow10(PriceMaxDigits - PriceDecimalPlaces) == 100_000_000;
  }

  // ---------------------------------------------------------------------
  // Slugs

  /** The slug `save` generates: the decimal id, a dash, then the slugified name. */
  function GeneratedSlug(id: nat, name: string, slugify: string -> string): (s: string)
    ensures |s| > 0
    ensures SlugId(s) == Some(id)
  {
    var digits := Decimal.NatToString(id);
    var s := digits + "-" + slugify(name);
    assert s[..|digits|] == digits;
    Decimal.FirstIndexAfterDigits(digits, s, '-');
    Decimal.NatToStringRoundTrip(id);
    s
  }

  /** The id a generated slug starts with: the digits before its first dash. */
  function SlugId(slug: string): Option<nat> {
    match Decimal.FirstIndex(slug, '-')
    case None => None
    case Some(k) =>
      if k > 0 && Decimal.AllDigits(slug[..k]) then Some(Decimal.DigitsValue(slug[..k])) else None
  }

  /**
   * The save rule shared by categories and products: a blank slug is filled
   * in from the id and name once the id is known; otherwise it is kept.
   */
  function FillSlug(id: Option<nat>, name: string, slug: string, slugify: string -> string): (r: string)
    ensures r != slug <==> slug == "" && id.Some?
    ensures r != slug ==> SlugId(r) == id
    ensures r == "" <==> slug == "" && id.None?
  {
    if slug == "" && id.Some? then GeneratedSlug(id.value, name, slugify) else slug
  }

  /**
   * `Category.save`: the slug rule runs with the id the row has before the
   * save; a row without an id is then inserted and receives `newId`, the id
   * the database assigns. Every other field is stored as given.
   */
  function SaveCategory(c: Category, newId: nat, slugify: string -> string): (r: Category)
    ensures r.(slug := c.slug, id := c.id) == c
    ensures r.slug == FillSlug(c.id, c.name, c.slug, slugify)
    ensures r.id == if c.id.Some? then c.id else Some(newId)
  {
    c.(slug := FillSlug(c.id, c.name, c.slug, slugify), id := Some(c.id.GetOr(newId)))
  }

  /** `Product.save`: the same rule as `Category.save`. */
  function SaveProduct(p: Product, newId: nat, slugify: string -> string): (r: Product)
    ensures r.(slug := p.slug, id := p.id) == p
    ensures r.slug == FillSlug(p.id, p.name, p.slug, slugify)
    ensures r.id == if p.id.Some? then p.id else Some(newId)
    ensures FieldsValid(r) <==> FieldsValid(p)
  {
    p.(slug := FillSlug(p.id, p.name, p.slug, slugify), id := Some(p.id.GetOr(newId)))
  }

  /** A slug that is already set survives every save. */
  lemma SlugNeverOverwritten(id: Option<nat>, name: string, slug: string, slugify: string -> string)
    requires slug != ""
    ensures FillSlug(id, name, slug, slugify) == slug
  {
  }

  /** With a known id, the generated slug is the id, a dash and the slugified name. */
  lemma SlugFromIdAndName(id: nat, name: string, slugify: string -> string)
    ensures FillSlug(Some(id), name, "", slugify) == Decimal.NatToString(id) + "-" + slugify(name)
  {
  }

  /**
   * Saving a second time changes nothing, except for a new category with a
   * blank slug: its first save inserts it while the id is still unknown, so
   * only the second save generates its slug.
   */
  lemma SaveCategoryTwice(c: Category, newId: nat, otherId: nat, slugify: string -> string)
    ensures var once := SaveCategory(c, newId, slugify);
      SaveCategory(once, otherId, slugify)
      == if c.id.None? && c.slug == "" then once.(slug := GeneratedSlug(newId, c.name, slugify)) else once
  {
  }

  /** A category that is already stored: saving it again changes nothing. */
  lemma SaveCategoryIdempotent(c: Category, newId: nat, otherId: nat, slugify: string -> string)
    requires c.id.Some?
    ensures SaveCategory(SaveCategory(c, newId, slugify), otherId, slugify) == SaveCategory(c, newId, slugify)
  {
  }

  /**
   * Saving a second time changes nothing, except for a new product with a
   * blank slug, which gets its slug only at the second save.
   */
  lemma SaveProductTwice(p: Product, newId: nat, otherId: nat, slugify: string -> string)
    ensures var once := SaveProduct(p, newId, slugify);
      SaveProduct(once, otherId, slugify)
      == if p.id.None? && p.slug == "" then once.(slug := GeneratedSlug(newId, p.name, slugify)) else once
  {
  }

  /** A product that is already stored: saving it again changes nothing. */
  lemma SaveProductIdempotent(p: Product, newId: nat, otherId: nat, slugify: string -> string)
    requires p.id.Some?
    ensures SaveProduct(SaveProduct(p, newId, slugify), otherId, slugify) == SaveProduct(p, newId, slugify)
  {
  }

  // ---------------------------------------------------------------------
  // Creating a product row

  datatype DbError = IntegrityError

  /** The product slug column is declared unique. */
  predicate UniqueSlugs(table: seq<Product>) {
    forall i, j :: 0 <= i < j < |table| ==> table[i].slug != table[j].slug
  }

  /** No row of `table` has slug `s`. */
  predicate SlugFree(table: seq<Product>, s: string) {
    forall i :: 0 <= i < |table| ==> table[i].slug != s
  }

  /**
   * Creating a product, as written: `save` runs while the id is
   * still unknown, so the slug rule does nothing; the database then assigns
   * `newId` and refuses the row if its slug is already taken.
   */
  function CreateProduct(table: seq<Product>, p: Product, newId: nat, slugify: string -> string)
    : (r: Result<seq<Product>, DbError>)
    requires p.id.None?
    ensures r.Success? <==> SlugFree(table, p.slug)
    ensures r.Success? ==> r.value == table + [p.(id := Some(newId))]
    ensures UniqueSlugs(table) && r.Success? ==> UniqueSlugs(r.value)
  {
    var row := SaveProduct(p, newId, slugify);
    if SlugFree(table, row.slug) then Success(table + [row]) else Failure(IntegrityError)
  }

  /**
   * Two products created with blank slugs: the first is stored with slug
   * "", so the second violates the unique constraint.
   */
  lemma SecondFreshProductRejected(a: Product, b: Product, idA: nat, idB: nat, slugify: string -> string)
    requires a.id.None? && a.slug == ""
    requires b.id.None? && b.slug == ""
    ensures CreateProduct([], a, idA, slugify).Success?
    ensures CreateProduct(CreateProduct([], a, idA, slugify).value, b, idB, slugify) == Failure(IntegrityError)
  {
    var t := CreateProduct([], a, idA, slugify).value;
    assert t[0].slug == "";
  }

  /** Product ids are primary keys: no two rows share one. */
  predicate DistinctIds(table: seq<Product>) {
    forall i, j :: 0 <= i < j < |table| ==> table[i].id != table[j].id
  }

  /**
   * The row `CreateProduct` stores for a blank-slug product has slug "",
   * and the next save of that row generates "<newId>-<slugify(name)>".
   */
  lemma StoredRowSlugOnNextSave(table: seq<Product>, p: Product, newId: nat, otherId: nat, slugify: string -> string)
    requires p.id.None? && p.slug == ""
    requires CreateProduct(table, p, newId, slugify).Success?
    ensures var row := CreateProduct(table, p, newId, slugify).value[|table|];
      row.slug == "" && SaveProduct(row, otherId, slugify).slug == GeneratedSlug(newId, p.name, slugify)
  {
  }

  /** Every row has an id and a slug that starts with that id; ids are distinct. */
  predicate SlugsFromIds(table: seq<Product>) {
    && (forall i :: 0 <= i < |table| ==> table[i].id.Some? && SlugId(table[i].slug) == table[i].id)
    && DistinctIds(table)
  }

  /**
   * Creation with the slug rule applied once the id is known, as the rule
   * evidently intends: a blank slug becomes "<newId>-<slugify(name)>".
   */
  function CreateProductCorrected(table: seq<Product>, p: Product, newId: nat, slugify: string -> string)
    : (r: Result<seq<Product>, DbError>)
    requires p.id.None?
    ensures r.Success? ==> r.value == table + [SaveProduct(p.(id := Some(newId)), newId, slugify)]
    ensures UniqueSlugs(table) && r.Success? ==> UniqueSlugs(r.value)
  {
    var row := SaveProduct(p.(id := Some(newId)), newId, slugify);
    if SlugFree(table, row.slug) then Success(table + [row]) else Failure(IntegrityError)
  }

  /**
   * With slugs generated from distinct ids, a product created with a blank
   * slug and a fresh id is always accepted, and the table keeps both
   * properties.
   */
  lemma CorrectedCreateAccepted(table: seq<Product>, p: Product, newId: nat, slugify: string -> string)
    requires p.id.None? && p.slug == ""
    requires SlugsFromIds(table)
    requires forall i :: 0 <= i < |table| ==> table[i].id != Some(newId)
    ensures CreateProductCorrected(table, p, newId, slugify).Success?
    ensures SlugsFromIds(CreateProductCorrected(table, p, newId, slugify).value)
  {
    var row := SaveProduct(p.(id := Some(newId)), newId, slugify);
    assert SlugId(row.slug) == Some(newId);
    forall i | 0 <= i < |table|
      ensures table[i].slug != row.slug
    {
      assert SlugId(table[i].slug) == table[i].id;
    }
  }
}

=== FILE: store_views.dfy ===
/**
 * The product-list view: the sort-parameter whitelist, the optional
 * category filter, the ordering of the result, the `current_sort` value
 * handed to the page, and the `cart_count` context processor.
 */
module StoreViews {
  import opened Wrappers
  import Sorting
  import StoreModels

  type Product = StoreModels.Product

  // ---------------------------------------------------------------------
  // Sort keys

  /** The ordering used when the request names none, or an unknown one. */
  const DefaultSort: string := "-created_at"

  const AllowedSortFields: seq<string> := ["price", "-price", "name", "-name", "created_at", "-created_at"]

  datatype SortField = Price | Name | CreatedAt

  /** A field to order by, and whether the order is descending (a leading '-'). */
  datatype SortKey = SortKey(field: SortField, descending: bool)

  /** The `order_by` text of a key. */
  function KeyText(k: SortKey): (s: string)
    ensures s in AllowedSortFields
  {
    match k
    case SortKey(Price, false) => "price"
    case SortKey(Price, true) => "-price"
    case SortKey(Name, false) => "name"
    case SortKey(Name, true) => "-name"
    case SortKey(CreatedAt, false) => "created_at"
    case SortKey(CreatedAt, true) => "-created_at"
  }

  /** The key an allowed `order_by` text denotes; `None` for any other text. */
  function ParseSortKey(s: string): (r: Option<SortKey>)
    ensures r.Some? <==> s in AllowedSortFields
    ensures r.Some? ==> KeyText(r.value) == s
  {
    if s == "price" then Some(SortKey(Price, false))
    else if s == "-price" then Some(SortKey(Price, true))
    else if s == "name" then Some(SortKey(Name, false))
    else if s == "-name" then Some(SortKey(Name, true))
    else if s == "created_at" then Some(SortKey(CreatedAt, false))
    else if s == "-created_at" then Some(SortKey(CreatedAt, true))
    else None
  }

  /** Every key's text parses back to the key. */
  lemma KeyTextRoundTrip(k: SortKey)
    ensures ParseSortKey(KeyText(k)) == Some(k)
  {
  }

  /**
   * The whitelist in `get_queryset`: the `sort` query parameter (absent
   * means the default) is kept when it is allowed and replaced by the
   * default otherwise.
   */
  function ValidateSort(param: Option<string>): (key: string)
    ensures key in AllowedSortFields
    ensures param.None? ==> key == DefaultSort
    ensures param.Some? && param.value in AllowedSortFields ==> key == param.value
    ensures param.Some? && param.value !in AllowedSortFields ==> key == DefaultSort
  {
    var requested := param.GetOr(DefaultSort);
    if requested in AllowedSortFields then requested else DefaultSort
  }

  /** Validating an already validated key gives it back unchanged. */
  lemma ValidateSortIdempotent(param: Option<string>)
    ensures ValidateSort(Some(ValidateSort(param))) == ValidateSort(param)
  {
  }

  /** The key the view orders by. */
  function AppliedKey(param: Option<string>): (k: SortKey)
    ensures KeyText(k) == ValidateSort(param)
  {
    ParseSortKey(ValidateSort(param)).value
  }

  /** The `current_sort` value given to the page: the raw parameter, or the default when it is absent. */
  function CurrentSort(param: Option<string>): (s: string)
    ensures param.Some? ==> s == param.value
    ensures param.None? ==> s == ValidateSort(param)
  {
    param.GetOr(DefaultSort)
  }

  /**
   * The page is told the raw parameter, which is the key actually applied
   * exactly when the parameter is absent or allowed.
   */
  lemma CurrentSortAgreesWhenAllowed(param: Option<string>)
    ensures CurrentSort(param) == ValidateSort(param) <==> param.None? || param.value in AllowedSortFields
  {
  }

  // ---------------------------------------------------------------------
  // Ordering

  /** Lexicographic order on character codes. */
  predicate TextLe(a: string, b: string)
    decreases |a|
  {
    |a| == 0 || (|b| > 0 && (a[0] < b[0] || (a[0] == b[0] && TextLe(a[1..], b[1..]))))
  }

  lemma {:induction false} TextLeTotal(a: string, b: string)
    ensures TextLe(a, b) || TextLe(b, a)
    decreases |a|
  {
    if |a| > 0 && |b| > 0 && a[0] == b[0] {
      TextLeTotal(a[1..], b[1..]);
    }
  }

  lemma {:induction false} TextLeTransitive(a: string, b: string, c: string)
    requires TextLe(a, b) && TextLe(b, c)
    ensures TextLe(a, c)
    decreases |a|
  {
    if |a| > 0 && a[0] == b[0] && b[0] == c[0] {
      TextLeTransitive(a[1..], b[1..], c[1..]);
    }
  }

  /** `a` may come before `b` when ordering by `k`. */
  predicate ProductLe(k: SortKey, a: Product, b: Product) {
    var (x, y) := if k.descending then (b, a) else (a, b);
    match k.field
    case Price => x.price <= y.price
    case Name => TextLe(x.name, y.name)
    case CreatedAt => x.createdAt <= y.createdAt
  }

  function Ordering(k: SortKey): (Product, Product) -> bool {
    (a, b) => ProductLe(k, a, b)
  }

  /** Every sort key orders all products and is transitive. */
  lemma OrderingIsTotalPreorder(k: SortKey)
    ensures Sorting.TotalPreorder(Ordering(k))
  {
    forall a, b
      ensures Ordering(k)(a, b) || Ordering(k)(b, a)
    {
      TextLeTotal(a.name, b.name);
    }
    forall a, b, c | Ordering(k)(a, b) && Ordering(k)(b, c)
      ensures Ordering(k)(a, c)
    {
      if k.field == Name {
        if k.descending {
          TextLeTransitive(c.name, b.name, a.name);
        } else {
          TextLeTransitive(a.name, b.name, c.name);
        }
      }
    }
  }

  // ---------------------------------------------------------------------
  // The queryset

  /** The products whose category has the given slug, in their original order. */
  function FilterByCategory(products: seq<Product>, slug: string): (r: seq<Product>)
    ensures forall p :: multiset(r)[p] == if p.category.slug == slug then multiset(products)[p] else 0
  {
    if |products| == 0 then []
    else
      var rest := FilterByCategory(products[1..], slug);
      assert products == [products[0]] + products[1..];
      if products[0].category.slug == slug then [products[0]] + rest else rest
  }

  /** The URL's `slug` argument filters only when it is present and not empty. */
  predicate Filtering(slug: Option<string>) {
    slug.Some? && slug.value != ""
  }

  function SelectProducts(products: seq<Product>, slug: Option<string>): seq<Product> {
    if Filtering(slug) then FilterByCategory(products, slug.value) else products
  }

  /**
   * `ProductListView.get_queryset`: all products, narrowed to one category
   * when the URL names one, ordered by the validated sort key.
   */
  function ProductList(products: seq<Product>, sortParam: Option<string>, slug: Option<string>)
    : (r: seq<Product>)
    ensures forall p :: p in r <==> p in products && (Filtering(slug) ==> p.category.slug == slug.value)
    ensures multiset(r) == multiset(SelectProducts(products, slug))
    ensures !Filtering(slug) ==> multiset(r) == multiset(products)
    ensures Sorting.SortedBy(r, Ordering(AppliedKey(sortParam)))
  {
    var k := AppliedKey(sortParam);
    OrderingIsTotalPreorder(k);
    var r := Sorting.SortBy(SelectProducts(products, slug), Ordering(k));
    assert forall p :: p in r <==> p in multiset(r);
    r
  }

  // ---------------------------------------------------------------------
  // The cart-count context processor

  /** The session's cart: a mapping from product keys to quantities. */
  type SessionCart = map<string, int>

  /** The session as far as the processor reads it: the `cart` entry, if any. */
  datatype Session = Session(cart: Option<SessionCart>)

  /** `cart_processor`: the number of entries in the session cart; 0 without a session. */
  function CartCount(session: Option<Session>): (n: nat)
    ensures session.None? ==> n == 0
    ensures session.Some? && session.value.cart.None? ==> n == 0
    ensures session.Some? && session.value.cart.Some? ==> n == |session.value.cart.value.Keys|
  {
    match session
    case None => 0
    case Some(s) => |s.cart.GetOr(map[])|
  }

  /** Putting a new product key into the session cart raises the count by one. */
  lemma CartCountNewEntry(cart: SessionCart, key: string, quantity: int)
    requires key !in cart
    ensures CartCount(Some(Session(Some(cart[key := quantity])))) == CartCount(Some(Session(Some(cart)))) + 1
  {
  }

  /** Changing the quantity of a key already in the session cart leaves the count alone. */
  lemma CartCountExistingEntry(cart: SessionCart, key: string, quantity: int)
    requires key in cart
    ensures CartCount(Some(Session(Some(cart[key := quantity])))) == CartCount(Some(Session(Some(cart))))
  {
    assert cart[key := quantity].Keys == cart.Keys;
  }
}

=== FILE: wrappers.dfy ===
/** Optional values and success-or-error results, shared by the whole model. */
module Wrappers {

  /** A value that may be absent: a missing query parameter, an unsaved id, a failed parse. */
  datatype Option<+T> = None | Some(value: T) {

    /** The wrapped value, or `default` when there is none (Python's `dict.get(key, default)`). */
    function GetOr(default: T): T {
      match this
      case Some(v) => v
      case None => default
    }
  }

  /** Either a value or the error that prevented it. */
  datatype Result<+R, +E> = Success(value: R) | Failure(error: E)
}
